=== FILE: README.md ===
# EGEX nerve agent, garden dashboard and wireframe text tool — a Dafny model

This project models the decision logic of three browser scripts of the EGEX sites and
proves properties of it:

- **The nerve agent** (`js/nerve.js`). This is a monitoring agent that every site of the network loads.
  - It keeps a bounded FIFO log of events in `localStorage`: at most 500 events, oldest evicted first.
  - It optionally forwards each event to an analytics hook.
  - It fetches the network manifest.
  - It probes sibling sites.
  - It records navigation edges between sites of the network.
  - It checks that the site's `CNAME` file names the host it is served from (the tripwire).
  - It offers an operator console (`window.__NERVE`).
- **The garden dashboard** (`js/garden.js`). The model covers its uptime formatter, how it shows an agent online or offline, the DOM ids it writes to, and the recent-file-changes list capped at 20 entries.
- **The wireframe text tool** (`js/wireframe-text.js`). When switched on by `?wireframe=1`, `true` or `on`, it replaces the visible text of a page with fixed placeholders. It leaves markup, navigation links and script-like subtrees alone.

Modules and files:

| file | modules | what |
|---|---|---|
| `values.dfy` | `Values` | `Option`, a JSON value type, JavaScript truthiness and `data \|\| {}` |
| `text.dfy` | `Text` | `trim` with the ECMAScript whitespace set, ASCII `toLowerCase`, `substring`, decimal printing and reading of integers |
| `nerve_store.dfy` | `Analytics`, `EventStore` | the analytics bridge, and load/save/push with the FIFO cap |
| `nerve_checks.dfy` | `ManifestLoader`, `Probes`, `NavGraph`, `Tripwire` | the manifest request, sibling probes, the navigation edge, the CNAME tripwire |
| `nerve_agent.dfy` | `Boot`, `DebugApi` | the boot sequence, and `status`, `exportJSON`, `clearEvents`, `ping` |
| `garden.dfy` | `Garden` | `formatUptime`, agent status and position, `addFileChange` |
| `wireframe.dfy` | `Wireframe` | the enable flag, `isWhitespaceOnly`, `placeholderForElement`, `replaceInElement`, `walk` |

How the world outside the code is represented:

- **Browser inputs.** The clock, HTTP responses, image load outcomes, the referrer and its URL parse, the page's host, and whether `localStorage` writes succeed are all parameters.
- **Events** are recorded as values returned by the model, not as side effects.
- **The storage slot** is modelled by what `JSON.parse` makes of it:
  - nothing stored;
  - unreadable (storage throws, or the text does not parse);
  - an array of events.
- **`JSON.stringify`** is a function parameter wherever its text matters, which is only the analytics bridge.
- **DOM writes** of the garden and wireframe code become the values returned. The document is a finite tree of `Node`s.

Behaviour of the code worth noting:

- **Manifest success status.** A manifest is accepted only on status `200` exactly (`js/nerve.js:68`), not on any 2xx status.
- **Navigation edge check.** An edge is recorded when the referrer's host is listed in the manifest's `network` and differs from the page's host (`js/nerve.js:136-140`). Membership of the page's own host is not checked.
- **A `null` manifest.** A manifest body that parses to `null` is delivered to the callback. The callback then throws on `m.selfDomain` inside the `try` of `loadManifest` (`js/nerve.js:69-72`), and `loadManifest` calls back a second time with the error. So a `null` manifest is recorded as `manifest_error` and is followed by the tripwire, like any other failure (`Boot.OnManifestOrder`).
- **The root of the wireframe walk.** The tree walker never yields its root (`js/wireframe-text.js:68-77`), so `document.body`'s own direct text is never replaced (`Wireframe.Walk`).
- **`SVG` in the skip set.** `SVG` is in the skip set (`js/wireframe-text.js:11`), but in an HTML document an inline `<svg>` reports the lower-case tag name `svg`, so that entry does not match it and the walk descends into inline SVG. SVG's own elements (`text`, `tspan`, `a`) report lower-case names, which have no placeholder, so their text stays. HTML inside a `<foreignObject>` reports upper-case names (`P`, `SPAN`, `A`) and is rewritten like any other HTML. The model takes tag names as given, so `Wireframe.WalkReplaces` covers such a tree: only the literal tag `SVG` shields its subtree.

## Model

| member | source | states |
|---|---|---|
| Values.OrEmptyObject | js/nerve.js:41 | a falsy or missing payload becomes `{}`, and every truthy payload (object, array, non-empty string, non-zero number, `true`) is kept as it is |
| Text.Trim | js/nerve.js:157 | the result is a contiguous part of the input with only whitespace before and after it; it is empty exactly for an all-whitespace string, and otherwise starts and ends with a non-whitespace character |
| Text.Prefix | js/nerve.js:55 | `substring(0, n)` keeps exactly the first `min(n, length)` characters |
| Text.IntToStringRoundTrip | js/nerve.js:73 | the decimal text of an integer, as built into the `manifest <status>` message, reads back as that integer |
| Text.ParseIntInverse | js/nerve.js:73 | conversely, the only text that reads back as an integer is its printed form: no leading zeros, no `-0`, so reading back pins the text |
| Analytics.BridgeGA4 | js/nerve.js:50-58 | a call is made exactly when a `gtag` hook exists; it is an `event` named `nerve_<type>` for the page's host, carrying exactly the first `min(100, length)` characters of the serialised payload |
| EventStore.LoadEvents | js/nerve.js:22-27 | a missing or unreadable slot reads as the empty log, never as an error; a stored array reads as itself |
| EventStore.KeepLast | js/nerve.js:30-33 | the cap keeps `min(n, 500)` events, and they are the last ones in their order |
| EventStore.SaveEvents | js/nerve.js:29-37 | a successful write stores the capped log; a failed write is swallowed and leaves the slot unchanged |
| EventStore.PushEvent | js/nerve.js:39-46 | the returned event is `{t, type, data \|\| {}}`; after a successful write it is the last entry of a log of at most 500 entries that holds the previous log, minus its oldest entry when full; a failed write changes nothing; the bridge is called with the same type and data |
| EventStore.BridgeNeverAffectsAppend | js/nerve.js:39-58 | whether the hook is missing, present or throwing, the stored log and the returned event are the same |
| EventStore.KeepLastAbsorbs | js/nerve.js:29-33 | capping a capped log after appending equals capping once, so repeated saves never lose an event a single save would keep |
| EventStore.PushStepIsPushEvent | js/nerve.js:39-46 | for an object payload, a successful `pushEvent` leaves the slot that load-append-save gives, whatever the analytics hook does |
| EventStore.PushOne | js/nerve.js:39-46 | one successful push is append-then-cap |
| EventStore.PushAllAppends | js/nerve.js:39-46 | a run of pushes appends the stamped events one at a time, capping after each |
| EventStore.AppendEachCaps | js/nerve.js:29-33 | capping after every append keeps exactly what one cap of the whole keeps, except when nothing is appended to a log stored over the cap |
| EventStore.FifoLaw | js/nerve.js:29-46 | from any log, any run of successful pushes by this page alone leaves exactly the last 500 events of the old log and the new events together, in order (with no push, a log stored over the cap by other code stays as it is) |
| EventStore.FifoEviction | js/nerve.js:29-46 | from any stored log, when this page is the only writer, after at least 500 pushes the log is exactly the last 500 events pushed, oldest first |
| EventStore.CountKindPermutation | js/nerve.js:107-127 | the number of events of a kind does not depend on the order the probe callbacks push them in: any rearrangement has the same counts |
| ManifestLoader.LoadManifest | js/nerve.js:64-77 | the callback gets the parsed document exactly on status 200 with a parseable body, `manifest network error` on a transport error, and `manifest <status>` on any other status |
| ManifestLoader.CachedManifest | js/nerve.js:62-77 | the manifest variable holds a usable manifest exactly after a 200 answer whose body parses to an object |
| ManifestLoader.CachedIsDelivered | js/nerve.js:64-77 | a manifest is held exactly when the callback was handed an object, and it is that object |
| Probes.ProbeReport | js/nerve.js:113-124 | a probe records `sibling_alive` when the image loads and `sibling_dead` when it fails; its data has exactly the fields `domain` and `ms`, the elapsed milliseconds |
| Probes.CanaryUrl | js/nerve.js:110 | the probed URL is the domain's `/_canary.png` with the clock reading as the `_` parameter, which reads back as that reading |
| Probes.CanaryUrlsDiffer | js/nerve.js:110 | probes at different clock readings request different URLs |
| Probes.PingSiblings | js/nerve.js:107-127 | one event per listed domain, none for a missing or empty list; the i-th is the i-th domain's probe report, naming its domain, carrying the outcome's kind and `ms` equal to the callback's clock reading minus the start's, non-negative when the clock runs forward |
| Probes.AliveAndDeadCounts | js/nerve.js:107-127 | the number of `sibling_alive` events is the number of loaded probes, and the number of `sibling_dead` events is the number of failed ones |
| NavGraph.SomeEquals | js/nerve.js:137-139 | the search succeeds exactly when the host is in the network list |
| NavGraph.CheckNavEdge | js/nerve.js:131-148 | at most one event; a `nav_edge {from, to}` is recorded exactly when there is a referrer, its URL parses, its host differs from the page's, and the manifest's network lists it |
| Tripwire.Classify | js/nerve.js:155-175 | exact conditions for each outcome: match and mismatch on 200 by comparing the trimmed CNAME with the host, no-CNAME on 404, error on transport failure, and silence on any other status |
| Tripwire.VerdictReports | js/nerve.js:159-174 | every outcome but silence records exactly one event |
| Tripwire.CheckTripwire | js/nerve.js:152-177 | the exact event for each case, and a console warning exactly on a mismatch |
| Boot.LoadedReport | js/nerve.js:194-198 | `manifest_loaded` has exactly the fields `siblings` and `network`, the list sizes with 0 for a missing list, plus `self` exactly when the manifest names one |
| Boot.OnManifest | js/nerve.js:186-208 | the callback always records first and runs the tripwire last |
| Boot.OnManifestOrder | js/nerve.js:186-208 | the callback records the manifest event first and always ends with the tripwire; a failure, including a `null` manifest, records `manifest_error` then runs the tripwire only; a usable manifest records `manifest_loaded`, then probes, checks the navigation edge, and runs the tripwire, and does nothing else; the navigation check runs exactly for a usable manifest |
| Boot.BootReports | js/nerve.js:181-208 | boot records the pageview before anything the manifest callback records |
| Boot.ManifestEvent | js/nerve.js:186-198 | the manifest event is `manifest_loaded` exactly when the manifest is usable |
| Boot.BootWithoutManifest | js/nerve.js:181-191 | without a usable manifest, boot records the pageview and `manifest_error`, then only the tripwire's event |
| Boot.BootWithManifest | js/nerve.js:181-208 | with a usable manifest, boot records the pageview, `manifest_loaded` and the navigation edge, then the probe events and the tripwire's event |
| Boot.BootShape | js/nerve.js:181-208 | boot's record is, in every case, the pageview, the manifest event, the navigation edge, the probe events and the tripwire's event |
| Boot.BootManifestEvent | js/nerve.js:186-198 | once the manifest request has settled, a boot records exactly one manifest event, and it is `manifest_loaded` exactly when the manifest is usable |
| Boot.BootTripwireEvent | js/nerve.js:186-208 | the tripwire runs on both paths: once the CNAME request has settled, a boot records one tripwire event unless the CNAME answer is neither 200 nor 404 |
| Boot.AnyArrivalOrder | js/nerve.js:186-208 | the asynchronous reports of a boot may arrive in any order: each kind's count over the whole boot is the same for every arrival order |
| Boot.BootNavEdge | js/nerve.js:186-208 | every boot records at most one navigation edge, and none without a usable manifest |
| Boot.BootProbeEvents | js/nerve.js:200-201 | once every request has settled, the probe events of a boot number exactly the siblings a usable manifest lists, and none otherwise |
| DebugApi.Tally | js/nerve.js:221-224 | the per-type tally has a key exactly for each type that occurs, and its value is that type's count |
| DebugApi.TallyAddsUp | js/nerve.js:221-224 | the tally's values add up to the number of events |
| DebugApi.GetStatus | js/nerve.js:219-237 | `status()` reports the version, the host, the number of stored events, their per-type counts and, when a manifest is held, its self domain, its siblings (`[]` when missing) and its network size |
| DebugApi.StatusCountsAddUp | js/nerve.js:219-237 | the per-type counts of `status()` add up to its event count |
| DebugApi.ExportJson | js/nerve.js:239-246 | the export carries the host, the time of export, the version and exactly the stored log |
| DebugApi.ExportAgreesWithStatus | js/nerve.js:219-246 | the export's events have the length and per-type counts that `status()` reports |
| DebugApi.ClearThenStatus | js/nerve.js:219-251 | after a successful `clearEvents()`, `status()` shows no events and no types, and the export is empty; after one that threw, the export still holds the old log |
| DebugApi.ClearEvents | js/nerve.js:248-251 | clearing empties the slot and answers `Cleared.`; when storage throws, nothing is answered and the slot is unchanged |
| DebugApi.Ping | js/nerve.js:253-256 | a manual ping records exactly the probe report of that domain and answers `Pinging <domain>...` |
| Garden.Breakdown | js/garden.js:512-521 | `0s` for a missing or zero value; whole seconds under a minute; whole minutes under an hour; otherwise hours and remaining minutes (under 60) that add up to the whole minutes |
| Garden.ParseRender | js/garden.js:512-521 | every displayed uptime reads back as the shape and numbers it was printed from |
| Garden.FormatUptime | js/garden.js:512-521 | the displayed text reads back as exactly the shape and numbers `Breakdown` computes |
| Garden.ParseUptimeInverse | js/garden.js:512-521 | only the rendered text reads back as a given shape, so with `FormatUptime` the display is determined |
| Garden.HoursMinsInverse | js/garden.js:520 | the text `"<h>h <m>m"` is determined by the hours and minutes it reads back as |
| Garden.FormatUptimeMeaning | js/garden.js:512-521 | the displayed text reads back as the seconds, minutes, or hours and minutes the value holds |
| Garden.DomId | js/garden.js:113 | `egex-eve` and `egex-adam` map to `eve` and `adam`; every other id is its own prefix |
| Garden.MarkerId | js/garden.js:160 | Eve's marker is moved exactly for `egex-eve`, and Adam's for every other id |
| Garden.UpdateAgentPosition | js/garden.js:157-175 | the marker moves exactly when there is a position with numeric coordinates and the marker exists; it goes to those coordinates and is marked offline exactly when the status is neither `online` nor `active` |
| Garden.HandleAgentStatus | js/garden.js:112-137 | when the status, card and mini-status elements are missing the handler throws and the marker is not moved; otherwise the card shows online exactly for `online` or `active`, with the matching symbol, class and label, the task (`Idle` by default) is written exactly when its element exists, and the marker update uses the same status |
| Garden.CardAndMarkerAgree | js/garden.js:112-175 | the card and the marker never disagree on whether the agent is online |
| Garden.HandleAgentLeft | js/garden.js:105-110 | an agent that leaves is shown offline on its card and on its marker, unless its card is missing |
| Garden.AddFileChange | js/garden.js:277-321 | the empty-state placeholder goes, the new change comes first, the rest keep their order, and the list grows by one until it exceeds 20, when the oldest is dropped |
| Garden.AddAllKeepsNewest | js/garden.js:314-320 | from a list within the cap, any run of additions leaves the 20 most recent changes, newest first |
| Wireframe.Enabled | js/wireframe-text.js:5-9 | the tool is on exactly when the parameter spells `1`, `true` or `on` in any mix of cases; a missing parameter leaves it off |
| Wireframe.IsWhitespaceOnly | js/wireframe-text.js:13-15 | a text counts as whitespace-only exactly when it is missing or consists only of whitespace |
| Wireframe.PlaceholderFor | js/wireframe-text.js:17-43 | each heading, paragraph, list item, span and button tag gets its fixed text; a link gets none inside navigation, `Call to Action` when styled as a button, and `Link Text` otherwise; every other tag gets none |
| Wireframe.PlaceholderNotBlank | js/wireframe-text.js:17-43 | no placeholder is whitespace-only |
| Wireframe.ReplaceInElement | js/wireframe-text.js:45-65 | a skipped tag is untouched; a form field's non-empty placeholder attribute becomes `Enter your input here` and its children stay; otherwise exactly the direct text children that are not whitespace-only take the element's placeholder, and nothing else changes |
| Wireframe.Visit | js/wireframe-text.js:67-80 | visiting keeps the tree's shape, tags and classes, leaves a skipped element as it was, and gives any other element the placeholder attribute and direct non-element children that `replaceInElement` gives it |
| Wireframe.Walk | js/wireframe-text.js:67-80 | the root's own text and attributes are not touched, and neither are its non-element children |
| Wireframe.VisitReplaces | js/wireframe-text.js:67-80 | every element below a visited one that the tree walker accepts, at any depth, is rewritten by `replaceInElement`, with `inNav` set once a `NAV` is passed |
| Wireframe.WalkReplaces | js/wireframe-text.js:67-80 | a walk rewrites every accepted element below the root in the same way |
| Wireframe.VisitRewritesText | js/wireframe-text.js:17-65 | a visible text directly inside a visited heading, paragraph, list item, span or button reads as that tag's fixed placeholder |
| Wireframe.VisitLeavesSkipped | js/wireframe-text.js:67-80 | every skipped subtree, at any depth, is left exactly as it was |
| Wireframe.WalkLeavesSkipped | js/wireframe-text.js:67-80 | a walk of the page leaves every skipped subtree as it was |
| Wireframe.ReplaceTwice | js/wireframe-text.js:45-65 | replacing an element's text twice is replacing it once |
| Wireframe.VisitIdempotent | js/wireframe-text.js:67-80 | visiting a visited subtree changes nothing |
| Wireframe.WalkIdempotent | js/wireframe-text.js:67-80 | running the tool twice on a page gives the same page as running it once |

## Left out

- **Visitor telemetry and the heartbeat** (`collectTelemetry`, `heartbeat`, the `HEARTBEAT_MS` timer). They read browser state, and the pageview payload is an input of `Boot.BootReports`.
- **The `uptime` field of `status()`.** It depends on the wall clock.
- **JSON text.**
  - `JSON.parse` and `JSON.stringify` are not defined. The slot and the responses are modelled by their parsed content, and `stringify` is a parameter.
  - `exportJSON`'s pretty-printing is not modelled.
  - A stored value that parses but is not an array is not modelled. In the code it makes `events.push` throw.
  - A manifest that parses to a JSON value other than an object or `null` is not modelled.
  - Manifest fields of the wrong type are not modelled. `siblings` and `network` are lists of strings or missing, and `selfDomain` is a string or missing. In the code, a non-empty string as `siblings` makes `siblings.forEach` throw inside `loadManifest`'s `try` after `manifest_loaded` is recorded, so that boot also records `manifest_error` and runs the tripwire a second time. A `selfDomain` of `null` is kept as `self: null` rather than left out.
- **Error texts from the engine.** The `SyntaxError` and `TypeError` messages recorded as `manifest_error` are fixed stand-in strings (`ManifestLoader.ParseErrorMessage`, `Boot.NullManifestMessage`).
- **Boot.BootReports**: describes a page that stays open until every request has settled. The manifest request, each canary image and the CNAME request record only from their `onload`/`onerror` handlers (`js/nerve.js:67-75`, `js/nerve.js:113-119`, `js/nerve.js:155-173`), so a request cut off when the page unloads or navigates away records nothing: the manifest event, the tripwire event and some probe events are then missing. `Boot.BootManifestEvent`, `Boot.BootTripwireEvent` and `Boot.BootProbeEvents` count the events of a boot whose requests all settled.
- **EventStore.FifoLaw**: assumes no other tab or window of the origin writes the slot during the run of pushes. Every tab shares `localStorage`, and `pushEvent` reads, appends and writes without a lock (`js/nerve.js:22-46`), so another tab's events can land between this page's pushes or be overwritten by them. `EventStore.FifoEviction` and `EventStore.PushEvent` make the same single-writer assumption: the slot they start from is what this page last wrote or found.
- **Order of asynchronous events.** Probe callbacks and the tripwire settle in an order the page does not control, and `Boot.BootReports` lists them in launch order. Counting ignores order (`EventStore.CountKindPermutation`), so every count stated by `Boot.BootManifestEvent`, `Boot.BootTripwireEvent`, `Boot.BootNavEdge` and `Boot.BootProbeEvents` is also the count for any arrival order of the asynchronous reports (`Boot.AnyArrivalOrder`). The order of the stored log itself is not modelled beyond launch order.
- **Text.IntToString**: models `String(n)` only for the decimal form. JavaScript prints integers of magnitude 10^21 or more in exponent notation (`1e+21`), which is not modelled; the clock readings and status codes printed here are far below that.
- **Probe clocks.** Clock readings are inputs, and `ms` is their difference. It is non-negative only when the clock runs forward, because the wall clock can be set back between start and callback.
- **Non-integer numbers.**
  - Fractional JSON numbers are not represented. The pageview's device pixel ratio (`js/nerve.js:90`) is fractional on most high-density screens; the pageview payload is an input, so nothing in the model depends on it.
  - `Garden.UpdateAgentPosition`: the coordinates are whole numbers, and the CSS text `"<x>%"` is not modelled.
  - `Garden.Breakdown` takes whole milliseconds. `NaN` and non-numeric arguments are not modelled.
- **Analytics.BridgeGA4**: `substring` counts UTF-16 code units, while strings here are sequences of Unicode scalar values. A payload with characters outside the Basic Multilingual Plane is cut at a different place (`Text.Prefix`).
- **DebugApi.Tally**: `types` is a plain object in the code, so an event type named like an `Object.prototype` member (`constructor`, `__proto__`) would not be tallied as modelled. The agent records no such type.
- **Garden.HandleAgentStatus**: the writes the handler makes before it throws on a missing card element are not modelled. One flag stands for the three elements: it is false when any of them is missing.
- **Wireframe.Enabled** lower-cases ASCII letters only. No other character lower-cases to a character of `1`, `true` or `on`, so the decision is the same.
- **Wireframe.Walk**: the code first collects the elements and then rewrites them. The model rewrites each element before descending, which gives the same result because a rewrite changes only the element's own text children and placeholder.
- **The rest of the garden dashboard.** Left out: the WebSocket connection and its message dispatch, the `fetch` loaders, the `innerHTML` rendering of messages, tasks and file changes, the connection line, the charts, the particles and the metrics dashboard. These are rendering and I/O around the modelled decisions.
- **`addFileChangeFromHistory`** (`js/garden.js:340`) is not part of this model. It appends history below the live entries without the cap.
- **`js/main.js` and `js/tools.js`** are not part of this model.

=== FILE: garden.dfy ===
/** The decision logic of the agent dashboard (js/garden.js): the uptime formatter,
    the online/offline presentation of an agent, the DOM ids it writes to, and the
    capped list of recent file changes. The DOM writes themselves become the values
    returned. */
module Garden {
  import opened Values
  import Text

  // ---- formatUptime ----

  /** The three shapes `formatUptime` prints: `"<s>s"`, `"<m>m"` and `"<h>h <m>m"`. */
  datatype Uptime = Secs(secs: int) | Mins(mins: int) | HoursMins(hours: int, mins: int)

  lemma NestedDivision(ms: int)
    ensures (ms / 1000) / 60 == ms / 60000
  {
  }

  /** Which shape `formatUptime(ms)` prints, and its numbers. `None` is a missing value.
      Division is JavaScript's `Math.floor(a / b)`, which for a positive divisor is
      Dafny's `/`. */
  function Breakdown(ms: Option<int>): (u: Uptime)
    ensures ms.None? || ms == Some(0) ==> u == Secs(0)
    ensures ms.Some? && ms.value / 1000 < 60 ==> u == Secs(ms.value / 1000)
    ensures ms.Some? && ms.value / 1000 >= 60 && ms.value / 60000 < 60 ==> u == Mins(ms.value / 60000)
    ensures ms.Some? && ms.value / 60000 >= 60 ==>
      u.HoursMins? && u.hours * 60 + u.mins == ms.value / 60000 && 0 <= u.mins < 60
  {
    match ms
    case None => Secs(0)
    case Some(v) =>
      if v == 0 then Secs(0)
      else
        var seconds := v / 1000;
        if seconds < 60 then Secs(seconds)
        else
          var minutes := seconds / 60;
          NestedDivision(v);
          if minutes < 60 then Mins(minutes)
          else HoursMins(minutes / 60, minutes % 60)
  }

  /** The text of each shape. */
  function Render(u: Uptime): string {
    match u
    case Secs(s) => Text.IntToString(s) + "s"
    case Mins(m) => Text.IntToString(m) + "m"
    case HoursMins(h, m) => Text.IntToString(h) + "h " + Text.IntToString(m) + "m"
  }

  /** `formatUptime(ms)`: the text reads back as the shape `Breakdown` gives. */
  function FormatUptime(ms: Option<int>): (r: string)
    ensures ParseUptime(r) == Some(Breakdown(ms))
  {
    var u := Breakdown(ms);
    ParseRender(u);
    Render(u)
  }

  /** First position of `c` in `s`. */
  function IndexOf(s: string, c: char): (r: Option<nat>)
    ensures r.None? <==> c !in s
    ensures r.Some? ==> r.value < |s| && s[r.value] == c && c !in s[..r.value]
  {
    if s == [] then None
    else if s[0] == c then Some(0)
    else
      match IndexOf(s[1..], c)
      case None => None
      case Some(i) =>
        assert s[..i + 1] == [s[0]] + s[1..][..i];
        Some(i + 1)
  }

  /** Reads a displayed uptime back into its shape. */
  function ParseUptime(t: string): Option<Uptime> {
    if |t| == 0 then None
    else
      var body := t[..|t| - 1];
      if t[|t| - 1] == 's' then
        match Text.ParseInt(body)
        case Some(n) => Some(Secs(n))
        case None => None
      else if t[|t| - 1] == 'm' then
        match IndexOf(body, 'h')
        case None =>
          (match Text.ParseInt(body)
           case Some(n) => Some(Mins(n))
           case None => None)
        case Some(i) =>
          if i + 1 < |body| && body[i + 1] == ' ' then
            match (Text.ParseInt(body[..i]), Text.ParseInt(body[i + 2..]))
            case (Some(h), Some(m)) => Some(HoursMins(h, m))
            case _ => None
          else None
      else None
  }

  lemma NumeralHasNo(n: int, c: char)
    requires c != '-' && !Text.IsDigit(c)
    ensures c !in Text.IntToString(n)
  {
    var s := Text.IntToString(n);
    if n < 0 {
      assert forall i :: 0 < i < |s| ==> s[i] == s[1..][i - 1];
    }
  }

  /** Every displayed uptime reads back as the shape it was printed from, so the text
      determines the numbers. */
  lemma ParseRender(u: Uptime)
    ensures ParseUptime(Render(u)) == Some(u)
  {
    match u
    case Secs(n) => ParseSuffixed(n, 's');
    case Mins(n) => ParseSuffixed(n, 'm');
    case HoursMins(h, m) => ParseHoursMins(h, m);
  }

  /** A bare numeral followed by its unit letter reads back. */
  lemma ParseSuffixed(n: int, unit: char)
    requires unit == 's' || unit == 'm'
    ensures ParseUptime(Text.IntToString(n) + [unit]) == Some(if unit == 's' then Secs(n) else Mins(n))
  {
    var t := Text.IntToString(n) + [unit];
    assert t[..|t| - 1] == Text.IntToString(n);
    NumeralHasNo(n, 'h');
    Text.IntToStringRoundTrip(n);
  }

  /** `"<h>h <m>m"` reads back as hours and minutes. */
  lemma ParseHoursMins(h: int, m: int)
    ensures ParseUptime(Render(HoursMins(h, m))) == Some(HoursMins(h, m))
  {
    var t := Render(HoursMins(h, m));
    var hs, ms := Text.IntToString(h), Text.IntToString(m);
    var body := hs + "h " + ms;
    assert t == body + "m";
    assert t[|t| - 1] == 'm' && t[..|t| - 1] == body;
    assert IndexOf(body, 'h') == Some(|hs|) by {
      NumeralHasNo(h, 'h');
      assert body[|hs|] == 'h' && body[..|hs|] == hs;
    }
    assert body[|hs| + 1] == ' ';
    assert body[..|hs|] == hs && body[|hs| + 2..] == ms;
    Text.IntToStringRoundTrip(h);
    Text.IntToStringRoundTrip(m);
  }

  /** Only the rendered text reads back as a given shape, so `FormatUptime`'s contract
      pins the displayed text. */
  lemma ParseUptimeInverse(t: string, u: Uptime)
    requires ParseUptime(t) == Some(u)
    ensures t == Render(u)
  {
    var body := t[..|t| - 1];
    assert t == body + [t[|t| - 1]];
    if t[|t| - 1] == 's' {
      Text.ParseIntInverse(body, u.secs);
    } else if IndexOf(body, 'h').None? {
      Text.ParseIntInverse(body, u.mins);
    } else {
      var i := IndexOf(body, 'h').value;
      HoursMinsInverse(body, i, u.hours, u.mins);
    }
  }

  /** The body of `"<h>h <m>m"` is determined by the two numbers it reads back as. */
  lemma HoursMinsInverse(body: string, i: nat, h: int, m: int)
    requires i + 1 < |body| && body[i] == 'h' && body[i + 1] == ' '
    requires Text.ParseInt(body[..i]) == Some(h) && Text.ParseInt(body[i + 2..]) == Some(m)
    ensures body == Text.IntToString(h) + "h " + Text.IntToString(m)
  {
    Text.ParseIntInverse(body[..i], h);
    Text.ParseIntInverse(body[i + 2..], m);
    assert body == body[..i] + "h " + body[i + 2..];
  }

  /** What `formatUptime` displays, read back: a missing or zero value shows `0s`;
      under a minute the whole seconds; under an hour the whole minutes; otherwise hours
      and the remaining minutes, which together make up the whole minutes. */
  lemma FormatUptimeMeaning(ms: Option<int>)
    ensures ms.None? || ms == Some(0) ==> FormatUptime(ms) == "0s"
    ensures ms.Some? && ms.value / 1000 < 60 ==> ParseUptime(FormatUptime(ms)) == Some(Secs(ms.value / 1000))
    ensures ms.Some? && ms.value / 1000 >= 60 && ms.value / 60000 < 60 ==>
      ParseUptime(FormatUptime(ms)) == Some(Mins(ms.value / 60000))
    ensures ms.Some? && ms.value / 60000 >= 60 ==>
      exists h, m :: ParseUptime(FormatUptime(ms)) == Some(HoursMins(h, m))
                  && h * 60 + m == ms.value / 60000 && 0 <= m < 60
  {
    var u := Breakdown(ms);
    ParseRender(u);
    if ms.None? || ms == Some(0) {
      assert Text.IntToString(0) == "0";
    }
  }

  // ---- Agent presence ----

  /** An agent is shown online exactly for the statuses `'online'` and `'active'`. */
  predicate ShownOnline(status: Option<string>) {
    status == Some("online") || status == Some("active")
  }

  /** The prefix of the status card's element ids for an agent id. */
  function DomId(agentId: string): (r: string)
    ensures agentId == "egex-eve" ==> r == "eve"
    ensures agentId == "egex-adam" ==> r == "adam"
    ensures agentId != "egex-eve" && agentId != "egex-adam" ==> r == agentId
  {
    if agentId == "egex-eve" then "eve" else if agentId == "egex-adam" then "adam" else agentId
  }

  /** The map marker moved for an agent: Eve's for `'egex-eve'`, Adam's for every other id. */
  function MarkerId(agentId: string): (r: string)
    ensures r == "eve-marker" <==> agentId == "egex-eve"
    ensures r == "adam-marker" <==> agentId != "egex-eve"
  {
    if agentId == "egex-eve" then "eve-marker" else "adam-marker"
  }

  /** A status message: agent id, status, current task and map position. */
  datatype AgentStatus = AgentStatus(agentId: string, status: Option<string>, task: Option<string>,
                                     position: Option<Position>)

  /** A position `{x, y}`; each coordinate is whatever JSON value was sent. */
  datatype Position = Position(x: Json, y: Json)

  /** What the status card shows; `task` is `None` when the card has no task element. */
  datatype Card = Card(domId: string, online: bool, symbol: string, className: string,
                       miniStatus: string, task: Option<string>)

  /** Which of the card's elements exist: `statusCardMini` is whether the status, card and
      mini-status elements all do (the code uses them unguarded), `task` whether the task
      element does (it is written only when present). */
  datatype CardElements = CardElements(statusCardMini: bool, task: bool)

  /** What a marker update writes: the element, its `left`/`top` percentages, and whether it
      carries the `offline` class. */
  datatype Marker = Marker(id: string, left: int, top: int, offline: bool)

  /** `updateAgentPosition(agentId, position, status)`; `markerPresent` is whether the
      marker element exists. */
  function UpdateAgentPosition(agentId: string, position: Option<Position>, status: Option<string>,
                               markerPresent: bool): (r: Option<Marker>)
    ensures r.None? <==>
      position.None? || !position.value.x.JNum? || !position.value.y.JNum? || !markerPresent
    ensures r.Some? ==>
      && r.value.id == MarkerId(agentId)
      && r.value.left == position.value.x.n && r.value.top == position.value.y.n
      && (r.value.offline <==> !ShownOnline(status))
  {
    match position
    case None => None
    case Some(Position(x, y)) =>
      if !x.JNum? || !y.JNum? || !markerPresent then None
      else Some(Marker(MarkerId(agentId), x.n, y.n, !ShownOnline(status)))
  }

  /** `handleAgentStatus(data)`: the card, and the marker update it triggers. When the
      card's status elements are missing the handler throws before it reaches the marker
      (`None`); what it wrote before throwing is not modelled. */
  function HandleAgentStatus(msg: AgentStatus, els: CardElements, markerPresent: bool)
    : (r: Option<(Card, Option<Marker>)>)
    ensures r.None? <==> !els.statusCardMini
    ensures r.Some? ==>
      var (card, marker) := r.value;
      && card.domId == DomId(msg.agentId)
      && (card.online <==> ShownOnline(msg.status))
      && (card.online ==> card.symbol == "●" && card.className == "agent-status online" && card.miniStatus == "online")
      && (!card.online ==> card.symbol == "⚫" && card.className == "agent-status offline" && card.miniStatus == "offline")
      && (card.task.Some? <==> els.task)
      && (els.task ==> card.task.value == (if msg.task.None? || msg.task == Some("") then "Idle" else msg.task.value))
      && marker == UpdateAgentPosition(msg.agentId, msg.position, msg.status, markerPresent)
  {
    if !els.statusCardMini then None
    else
      var online := ShownOnline(msg.status);
      var task := match msg.task { case Some(t) => if t == "" then "Idle" else t case None => "Idle" };
      var card := Card(
        DomId(msg.agentId),
        online,
        if online then "●" else "⚫",
        if online then "agent-status online" else "agent-status offline",
        if online then "online" else "offline",
        if els.task then Some(task) else None);
      Some((card, UpdateAgentPosition(msg.agentId, msg.position, msg.status, markerPresent)))
  }

  /** The card and the marker never disagree about whether the agent is online. */
  lemma CardAndMarkerAgree(msg: AgentStatus, els: CardElements, markerPresent: bool)
    ensures var r := HandleAgentStatus(msg, els, markerPresent);
      r.Some? && r.value.1.Some? ==> (r.value.1.value.offline <==> !r.value.0.online)
  {
  }

  /** `handleAgentLeft`: the agent's status is forced to `'offline'`; card and marker
      both show it offline. */
  function HandleAgentLeft(agentId: string, task: Option<string>, position: Option<Position>,
                           els: CardElements, markerPresent: bool): (r: Option<(Card, Option<Marker>)>)
    ensures r.None? <==> !els.statusCardMini
    ensures r.Some? ==> !r.value.0.online && r.value.0.miniStatus == "offline"
    ensures r.Some? && r.value.1.Some? ==> r.value.1.value.offline
  {
    HandleAgentStatus(AgentStatus(agentId, Some("offline"), task, position), els, markerPresent)
  }

  // ---- Recent file changes ----

  /** Most entries the file-history list keeps after a live addition. */
  const MaxChanges: nat := 20

  datatype FileChange = FileChange(operation: string, path: string, agentId: string, time: string)

  /** The file-history list: whether it still shows its empty-state placeholder, and the
      change entries, newest first. */
  datatype FileHistory = FileHistory(emptyState: bool, changes: seq<FileChange>)

  /** `addFileChange(data)`: the placeholder goes, the new entry goes first, and when the
      list then exceeds the cap its last entry is removed. */
  function AddFileChange(h: FileHistory, c: FileChange): (r: FileHistory)
    ensures !r.emptyState
    ensures |r.changes| >= 1 && r.changes[0] == c
    ensures |r.changes| == if |h.changes| + 1 > MaxChanges then |h.changes| else |h.changes| + 1
    ensures r.changes[1..] == h.changes[..|r.changes| - 1]
    ensures |h.changes| <= MaxChanges ==> |r.changes| <= MaxChanges
  {
    var added := [c] + h.changes;
    if |added| > MaxChanges then FileHistory(false, added[..|added| - 1])
    else FileHistory(false, added)
  }

  /** Live additions one after another, in arrival order. */
  function AddAll(h: FileHistory, cs: seq<FileChange>): FileHistory
    decreases |cs|
  {
    if cs == [] then h else AddAll(AddFileChange(h, cs[0]), cs[1..])
  }

  function Reverse<T>(s: seq<T>): (r: seq<T>)
    ensures |r| == |s|
    ensures forall i :: 0 <= i < |s| ==> r[i] == s[|s| - 1 - i]
  {
    if s == [] then [] else Reverse(s[1..]) + [s[0]]
  }

  function Take<T>(s: seq<T>, n: nat): (r: seq<T>)
    ensures |r| == if |s| < n then |s| else n
    ensures r == s[..|r|]
  {
    if |s| <= n then s else s[..n]
  }

  /** Starting from a list within the cap, any run of live additions leaves the
      `MaxChanges` most recent changes, newest first. */
  lemma {:induction false} AddAllKeepsNewest(h: FileHistory, cs: seq<FileChange>)
    requires |h.changes| <= MaxChanges
    ensures AddAll(h, cs).changes == Take(Reverse(cs) + h.changes, MaxChanges)
    decreases |cs|
  {
    if cs == [] {
      assert Reverse(cs) + h.changes == h.changes;
    } else {
      var h1 := AddFileChange(h, cs[0]);
      AddAllKeepsNewest(h1, cs[1..]);
      assert h1.changes == Take([cs[0]] + h.changes, MaxChanges);
      var a := Reverse(cs[1..]);
      assert Reverse(cs) == a + [cs[0]];
      var lhs := Take(a + Take([cs[0]] + h.changes, MaxChanges), MaxChanges);
      var rhs := Take(Reverse(cs) + h.changes, MaxChanges);
      assert |lhs| == |rhs|;
      forall i | 0 <= i < |lhs|
        ensures lhs[i] == rhs[i]
      {
        if i < |a| {
          assert lhs[i] == a[i] == rhs[i];
        } else {
          assert lhs[i] == ([cs[0]] + h.changes)[i - |a|];
          assert rhs[i] == (a + [cs[0]] + h.changes)[i];
        }
      }
    }
  }
}

=== FILE: nerve_agent.dfy ===
/** The boot sequence of the monitoring agent (js/nerve.js, `boot`): a pageview first,
    then, when the manifest request settles, the checks that depend on its outcome. */
module Boot {
  import opened Values
  import opened EventStore
  import ML = ManifestLoader
  import Probes
  import NavGraph
  import Tripwire

  /** What the manifest callback does, in order. */
  datatype Step =
    | Record(report: Report)
    | Ping(siblings: Option<seq<string>>)
    | NavCheck
    | RunTripwire

  /** Message of the engine's `TypeError` when the callback reads `selfDomain` of a `null`
      manifest. The exact wording is the engine's and is not modelled. */
  const NullManifestMessage: string := "Cannot read properties of null (reading 'selfDomain')"

  /** The `manifest_loaded` event: the self domain (left out when missing, as
      `JSON.stringify` leaves out `undefined`) and the sizes of both lists. */
  function LoadedReport(m: ML.Manifest): (r: Report)
    ensures r.kind == "manifest_loaded" && r.data.JObj?
    ensures "siblings" in r.data.fields && r.data.fields["siblings"] == JNum(ML.CountOf(m.siblings))
    ensures "network" in r.data.fields && r.data.fields["network"] == JNum(ML.CountOf(m.network))
    ensures r.data.fields.Keys == {"siblings", "network"} + (if m.selfDomain.Some? then {"self"} else {})
    ensures m.selfDomain.Some? ==> r.data.fields["self"] == JStr(m.selfDomain.value)
  {
    var counts := map["siblings" := JNum(ML.CountOf(m.siblings)), "network" := JNum(ML.CountOf(m.network))];
    match m.selfDomain
    case Some(d) => Report("manifest_loaded", JObj(counts["self" := JStr(d)]))
    case None => Report("manifest_loaded", JObj(counts))
  }

  function ErrorReport(msg: string): Report {
    Report("manifest_error", JObj(map["msg" := JStr(msg)]))
  }

  /** Whether the callback sees a usable (object) manifest. */
  predicate Usable(d: ML.Delivery) {
    d.Delivered? && d.doc.ObjectDocument?
  }

  /** The manifest callback of `boot`. A `null` manifest makes the success branch throw
      before it records anything; `loadManifest` catches that and calls back again with the
      error, so it ends like any other failure. */
  function OnManifest(d: ML.Delivery): (steps: seq<Step>)
    ensures |steps| >= 2 && steps[0].Record? && steps[|steps| - 1] == RunTripwire
  {
    match d
    case Failed(msg) => [Record(ErrorReport(msg)), RunTripwire]
    case Delivered(NullDocument) => [Record(ErrorReport(NullManifestMessage)), RunTripwire]
    case Delivered(ObjectDocument(m)) => [Record(LoadedReport(m)), Ping(m.siblings), NavCheck, RunTripwire]
  }

  /** Whatever the outcome, the callback records the manifest event first and ends with
      the tripwire; a failure records `manifest_error` (with the error's message) and
      runs nothing else; a usable manifest records `manifest_loaded`, probes its
      siblings and checks the navigation edge in between. */
  lemma OnManifestOrder(d: ML.Delivery)
    ensures var steps := OnManifest(d);
      && |steps| >= 2 && steps[0].Record? && steps[|steps| - 1] == RunTripwire
      && (Usable(d) <==> steps[0].report.kind == "manifest_loaded")
      && (!Usable(d) <==> steps[0].report.kind == "manifest_error")
      && (!Usable(d) ==> |steps| == 2)
      && (d.Failed? ==> steps[0] == Record(ErrorReport(d.msg)))
      && (Usable(d) ==> Ping(d.doc.m.siblings) in steps)
      && (Usable(d) ==> |steps| == 4 && steps[1] == Ping(d.doc.m.siblings) && steps[2] == NavCheck)
      && (NavCheck in steps <==> Usable(d))
  {
  }

  /** Everything boot depends on that comes from outside: the pageview payload the
      telemetry reads from the browser, the manifest response, the referrer and its URL
      parse, the page's host, the fate of each sibling probe and the CNAME response. */
  datatype World = World(
    pageview: Json,
    manifest: ML.Response,
    referrer: string,
    hostOf: string -> Option<string>,
    host: string,
    probes: seq<Probes.ProbeOutcome>,
    cname: Tripwire.CnameResponse)

  /** The domains probed during boot. */
  function Probed(resp: ML.Response): seq<string> {
    match ML.CachedManifest(resp)
    case Some(m) => ML.Listed(m.siblings)
    case None => []
  }

  /** What boot records: `sync` in the order the code records it (pageview, manifest
      event, navigation edge), and `async` the events of callbacks that settle later
      (probes, then the tripwire, in launch order; the page may see them in any order). */
  datatype BootRecord = BootRecord(sync: seq<Report>, async: seq<Report>)

  /** What one step adds to the record. */
  function Apply(step: Step, w: World, acc: BootRecord): BootRecord
    requires step.Ping? ==> |w.probes| == |ML.Listed(step.siblings)|
  {
    match step
    case Record(r) => acc.(sync := acc.sync + [r])
    case Ping(siblings) => acc.(async := acc.async + Probes.PingSiblings(siblings, w.probes))
    case NavCheck =>
      acc.(sync := acc.sync + NavGraph.CheckNavEdge(w.referrer, w.hostOf, w.host, ML.CachedManifest(w.manifest)))
    case RunTripwire => acc.(async := acc.async + Tripwire.CheckTripwire(w.cname, w.host).0)
  }

  function RunSteps(steps: seq<Step>, w: World, acc: BootRecord): BootRecord
    requires forall i :: 0 <= i < |steps| && steps[i].Ping? ==> |w.probes| == |ML.Listed(steps[i].siblings)|
  {
    if steps == [] then acc else RunSteps(steps[1..], w, Apply(steps[0], w, acc))
  }

  /** Running steps only adds to what is already recorded. */
  lemma {:induction false} RunStepsExtends(steps: seq<Step>, w: World, acc: BootRecord)
    requires forall i :: 0 <= i < |steps| && steps[i].Ping? ==> |w.probes| == |ML.Listed(steps[i].siblings)|
    ensures |RunSteps(steps, w, acc).sync| >= |acc.sync|
    ensures RunSteps(steps, w, acc).sync[..|acc.sync|] == acc.sync
    decreases |steps|
  {
    if steps != [] {
      var next := Apply(steps[0], w, acc);
      assert |next.sync| >= |acc.sync| && next.sync[..|acc.sync|] == acc.sync;
      RunStepsExtends(steps[1..], w, next);
      var r := RunSteps(steps, w, acc);
      assert r == RunSteps(steps[1..], w, next);
      assert r.sync[..|acc.sync|] == r.sync[..|next.sync|][..|acc.sync|];
    }
  }

  lemma RunStepsCons(step: Step, rest: seq<Step>, w: World, acc: BootRecord)
    requires step.Ping? ==> |w.probes| == |ML.Listed(step.siblings)|
    requires forall i :: 0 <= i < |rest| && rest[i].Ping? ==> |w.probes| == |ML.Listed(rest[i].siblings)|
    ensures RunSteps([step] + rest, w, acc) == RunSteps(rest, w, Apply(step, w, acc))
  {
  }

  /** `boot()`: the pageview, then the manifest callback's steps. */
  function BootReports(w: World): (r: BootRecord)
    requires |w.probes| == |Probed(w.manifest)|
    ensures |r.sync| >= 1 && r.sync[0] == Report("pageview", w.pageview)
  {
    var steps := OnManifest(ML.LoadManifest(w.manifest));
    var start := BootRecord([Report("pageview", w.pageview)], []);
    RunStepsExtends(steps, w, start);
    var r := RunSteps(steps, w, start);
    assert r.sync[0] == r.sync[..1][0];
    r
  }

  function AllReports(b: BootRecord): seq<Report> {
    b.sync + b.async
  }

  /** The asynchronous reports may arrive in any order: every rearrangement of them leaves
      each kind's count in the whole record unchanged. */
  lemma AnyArrivalOrder(b: BootRecord, arrived: seq<Report>, kind: string)
    requires multiset(arrived) == multiset(b.async)
    ensures CountKind(b.sync + arrived, kind) == CountKind(AllReports(b), kind)
  {
    CountKindAppend(b.sync, arrived, kind);
    CountKindAppend(b.sync, b.async, kind);
    CountKindPermutation(arrived, b.async, kind);
  }

  /** Number of tripwire events among `rs`. */
  function TripwireCount(rs: seq<Report>): nat {
    CountKind(rs, "tripwire_ok") + CountKind(rs, "tripwire_mismatch")
    + CountKind(rs, "tripwire_no_cname") + CountKind(rs, "tripwire_error")
  }

  /** The event the manifest callback records first. */
  function ManifestEvent(w: World): (r: Report)
    ensures r.kind == (if ML.CachedManifest(w.manifest).Some? then "manifest_loaded" else "manifest_error")
  {
    OnManifest(ML.LoadManifest(w.manifest))[0].report
  }

  /** The navigation edge boot records, if any. */
  function NavEdges(w: World): seq<Report> {
    if ML.CachedManifest(w.manifest).Some?
    then NavGraph.CheckNavEdge(w.referrer, w.hostOf, w.host, ML.CachedManifest(w.manifest))
    else []
  }

  /** The probe events boot's probes record. */
  function ProbeEvents(w: World): seq<Report>
    requires |w.probes| == |Probed(w.manifest)|
  {
    match ML.CachedManifest(w.manifest)
    case Some(m) => Probes.PingSiblings(m.siblings, w.probes)
    case None => []
  }

  /** Boot on a manifest failure: pageview, `manifest_error`, then the tripwire alone. */
  lemma BootWithoutManifest(w: World)
    requires ML.CachedManifest(w.manifest).None?
    requires |w.probes| == 0
    ensures BootReports(w).sync == [Report("pageview", w.pageview), ManifestEvent(w)]
    ensures BootReports(w).async == Tripwire.CheckTripwire(w.cname, w.host).0
  {
    var pv := Report("pageview", w.pageview);
    var me := ManifestEvent(w);
    var tw := Tripwire.CheckTripwire(w.cname, w.host).0;
    var acc0 := BootRecord([pv], []);
    assert BootReports(w) == RunSteps([Record(me), RunTripwire], w, acc0) by {
      FailedSteps(w);
    }
    assert RunSteps([Record(me), RunTripwire], w, acc0) == BootRecord([pv] + [me], [] + tw) by {
      RunFailed(me, w, acc0);
    }
    assert [] + tw == tw;
  }

  /** The callback's steps without a usable manifest, read off the response. */
  lemma FailedSteps(w: World)
    requires ML.CachedManifest(w.manifest).None?
    ensures OnManifest(ML.LoadManifest(w.manifest)) == [Record(ManifestEvent(w)), RunTripwire]
  {
    ML.CachedIsDelivered(w.manifest);
  }

  /** The two steps after a failure, run one after the other. */
  lemma RunFailed(r: Report, w: World, acc: BootRecord)
    ensures RunSteps([Record(r), RunTripwire], w, acc)
         == BootRecord(acc.sync + [r], acc.async + Tripwire.CheckTripwire(w.cname, w.host).0)
  {
    RunStepsCons(Record(r), [RunTripwire], w, acc);
    RunStepsCons(RunTripwire, [], w, Apply(Record(r), w, acc));
  }

  /** Boot with a manifest: pageview, `manifest_loaded`, at most one navigation edge;
      then one probe event per sibling and the tripwire's event. */
  lemma BootWithManifest(w: World)
    requires ML.CachedManifest(w.manifest).Some?
    requires |w.probes| == |Probed(w.manifest)|
    ensures var m := ML.CachedManifest(w.manifest).value;
      && BootReports(w).sync
         == [Report("pageview", w.pageview), LoadedReport(m)]
            + NavGraph.CheckNavEdge(w.referrer, w.hostOf, w.host, Some(m))
      && BootReports(w).async
         == Probes.PingSiblings(m.siblings, w.probes) + Tripwire.CheckTripwire(w.cname, w.host).0
  {
    var m := ML.CachedManifest(w.manifest).value;
    var pv := Report("pageview", w.pageview);
    var acc0 := BootRecord([pv], []);
    var steps := [Record(LoadedReport(m)), Ping(m.siblings), NavCheck, RunTripwire];
    var nav := NavGraph.CheckNavEdge(w.referrer, w.hostOf, w.host, Some(m));
    var pings := Probes.PingSiblings(m.siblings, w.probes);
    var tw := Tripwire.CheckTripwire(w.cname, w.host).0;
    var rec := RunSteps(steps, w, acc0);
    assert BootReports(w) == rec by {
      LoadedSteps(w);
    }
    assert rec == BootRecord([pv] + [LoadedReport(m)] + nav, [] + pings + tw) by {
      RunLoaded(LoadedReport(m), m.siblings, w, acc0);
    }
    assert rec.sync == [pv, LoadedReport(m)] + nav by { PairThen(pv, LoadedReport(m), nav); }
    assert rec.async == pings + tw by { EmptyThen(pings, tw); }
  }

  lemma PairThen<T>(a: T, b: T, c: seq<T>)
    ensures [a] + [b] + c == [a, b] + c
  {
  }

  lemma EmptyThen<T>(a: seq<T>, b: seq<T>)
    ensures [] + a + b == a + b
  {
  }

  /** The four steps on a usable manifest, run one after the other. */
  lemma RunLoaded(r: Report, siblings: Option<seq<string>>, w: World, acc: BootRecord)
    requires |w.probes| == |ML.Listed(siblings)|
    ensures RunSteps([Record(r), Ping(siblings), NavCheck, RunTripwire], w, acc)
         == BootRecord(acc.sync + [r] + NavGraph.CheckNavEdge(w.referrer, w.hostOf, w.host, ML.CachedManifest(w.manifest)),
                       acc.async + Probes.PingSiblings(siblings, w.probes) + Tripwire.CheckTripwire(w.cname, w.host).0)
  {
    var acc1 := Apply(Record(r), w, acc);
    var acc2 := Apply(Ping(siblings), w, acc1);
    var acc3 := Apply(NavCheck, w, acc2);
    RunStepsCons(Record(r), [Ping(siblings), NavCheck, RunTripwire], w, acc);
    RunStepsCons(Ping(siblings), [NavCheck, RunTripwire], w, acc1);
    RunStepsCons(NavCheck, [RunTripwire], w, acc2);
    RunStepsCons(RunTripwire, [], w, acc3);
  }

  /** The callback's steps on a usable manifest, read off the response. */
  lemma LoadedSteps(w: World)
    requires ML.CachedManifest(w.manifest).Some?
    ensures var m := ML.CachedManifest(w.manifest).value;
      OnManifest(ML.LoadManifest(w.manifest)) == [Record(LoadedReport(m)), Ping(m.siblings), NavCheck, RunTripwire]
  {
    ML.CachedIsDelivered(w.manifest);
  }

  /** Boot's record in five pieces: pageview, manifest event, navigation edge, probe
      events, tripwire event. */
  lemma BootShape(w: World)
    requires |w.probes| == |Probed(w.manifest)|
    ensures AllReports(BootReports(w))
         == [Report("pageview", w.pageview)] + [ManifestEvent(w)] + NavEdges(w) + ProbeEvents(w)
            + Tripwire.CheckTripwire(w.cname, w.host).0
  {
    if ML.CachedManifest(w.manifest).Some? {
      BootShapeLoaded(w);
    } else {
      BootShapeFailed(w);
    }
  }

  lemma BootShapeFailed(w: World)
    requires ML.CachedManifest(w.manifest).None?
    requires |w.probes| == |Probed(w.manifest)|
    ensures AllReports(BootReports(w))
         == [Report("pageview", w.pageview)] + [ManifestEvent(w)] + NavEdges(w) + ProbeEvents(w)
            + Tripwire.CheckTripwire(w.cname, w.host).0
  {
    var pv := Report("pageview", w.pageview);
    var me := ManifestEvent(w);
    var tw := Tripwire.CheckTripwire(w.cname, w.host).0;
    assert NavEdges(w) == [] && ProbeEvents(w) == [];
    assert BootReports(w).sync == [pv, me] && BootReports(w).async == tw by {
      BootWithoutManifest(w);
    }
    RegroupFailed(pv, me, tw);
  }

  lemma RegroupFailed<T>(a: T, b: T, e: seq<T>)
    ensures [a, b] + e == [a] + [b] + [] + [] + e
  {
  }

  lemma BootShapeLoaded(w: World)
    requires ML.CachedManifest(w.manifest).Some?
    requires |w.probes| == |Probed(w.manifest)|
    ensures AllReports(BootReports(w))
         == [Report("pageview", w.pageview)] + [ManifestEvent(w)] + NavEdges(w) + ProbeEvents(w)
            + Tripwire.CheckTripwire(w.cname, w.host).0
  {
    var m := ML.CachedManifest(w.manifest).value;
    var pv := Report("pageview", w.pageview);
    var lr := LoadedReport(m);
    var tw := Tripwire.CheckTripwire(w.cname, w.host).0;
    var nav := NavEdges(w);
    var pings := ProbeEvents(w);
    assert ManifestEvent(w) == lr;
    assert BootReports(w).sync == [pv, lr] + nav && BootReports(w).async == pings + tw by {
      BootWithManifest(w);
    }
    Regroup(pv, lr, nav, pings, tw);
  }

  lemma Regroup<T>(a: T, b: T, c: seq<T>, d: seq<T>, e: seq<T>)
    ensures ([a, b] + c) + (d + e) == [a] + [b] + c + d + e
  {
  }

  lemma CountFive(a: seq<Report>, b: seq<Report>, c: seq<Report>, d: seq<Report>, e: seq<Report>, k: string)
    ensures CountKind(a + b + c + d + e, k)
         == CountKind(a, k) + CountKind(b, k) + CountKind(c, k) + CountKind(d, k) + CountKind(e, k)
  {
    CountKindAppend(a + b + c + d, e, k);
    CountKindAppend(a + b + c, d, k);
    CountKindAppend(a + b, c, k);
    CountKindAppend(a, b, k);
  }

  /** No report of `rs` has kind `kind` when every report is a probe event. */
  lemma {:induction false} NoneOfKind(rs: seq<Report>, kind: string)
    requires kind != "sibling_alive" && kind != "sibling_dead"
    requires forall i :: 0 <= i < |rs| ==> rs[i].kind == "sibling_alive" || rs[i].kind == "sibling_dead"
    ensures CountKind(rs, kind) == 0
  {
    if rs != [] {
      NoneOfKind(rs[1..], kind);
    }
  }

  /** How often a kind other than the probe kinds occurs in boot's record. */
  lemma CountNonProbe(w: World, k: string)
    requires |w.probes| == |Probed(w.manifest)|
    requires k != "sibling_alive" && k != "sibling_dead"
    ensures CountKind(AllReports(BootReports(w)), k)
         == (if k == "pageview" then 1 else 0) + (if ManifestEvent(w).kind == k then 1 else 0)
            + CountKind(NavEdges(w), k) + CountKind(Tripwire.CheckTripwire(w.cname, w.host).0, k)
  {
    BootShape(w);
    var pv := [Report("pageview", w.pageview)];
    CountFive(pv, [ManifestEvent(w)], NavEdges(w), ProbeEvents(w), Tripwire.CheckTripwire(w.cname, w.host).0, k);
    CountKindShort(pv, k);
    CountKindShort([ManifestEvent(w)], k);
    NoneOfKind(ProbeEvents(w), k);
  }

  /** Exactly one manifest event, and it is `manifest_loaded` exactly when the manifest
      is a usable object. */
  lemma BootManifestEvent(w: World)
    requires |w.probes| == |Probed(w.manifest)|
    ensures var all := AllReports(BootReports(w));
      && CountKind(all, "manifest_loaded") + CountKind(all, "manifest_error") == 1
      && (CountKind(all, "manifest_loaded") == 1 <==> ML.CachedManifest(w.manifest).Some?)
  {
    var all := AllReports(BootReports(w));
    assert CountKind(all, "manifest_loaded") == (if ManifestEvent(w).kind == "manifest_loaded" then 1 else 0) by {
      OnlyFromManifest(w, "manifest_loaded");
    }
    assert CountKind(all, "manifest_error") == (if ManifestEvent(w).kind == "manifest_error" then 1 else 0) by {
      OnlyFromManifest(w, "manifest_error");
    }
  }

  /** A manifest kind occurs in boot's record only through the manifest event. */
  lemma OnlyFromManifest(w: World, k: string)
    requires |w.probes| == |Probed(w.manifest)|
    requires k == "manifest_loaded" || k == "manifest_error"
    ensures CountKind(AllReports(BootReports(w)), k) == (if ManifestEvent(w).kind == k then 1 else 0)
  {
    CountNonProbe(w, k);
    CountKindShort(Tripwire.CheckTripwire(w.cname, w.host).0, k);
    CountKindShort(NavEdges(w), k);
  }

  /** The tripwire reports exactly once whatever the manifest did, unless its answer is
      neither 200 nor 404. */
  lemma BootTripwireEvent(w: World)
    requires |w.probes| == |Probed(w.manifest)|
    ensures TripwireCount(AllReports(BootReports(w)))
         == (if Tripwire.Classify(w.cname, w.host).Silent? then 0 else 1)
  {
    var tw := Tripwire.CheckTripwire(w.cname, w.host).0;
    var all := AllReports(BootReports(w));
    assert CountKind(all, "tripwire_ok") == CountKind(tw, "tripwire_ok") by {
      OnlyFromTripwire(w, "tripwire_ok");
    }
    assert CountKind(all, "tripwire_mismatch") == CountKind(tw, "tripwire_mismatch") by {
      OnlyFromTripwire(w, "tripwire_mismatch");
    }
    assert CountKind(all, "tripwire_no_cname") == CountKind(tw, "tripwire_no_cname") by {
      OnlyFromTripwire(w, "tripwire_no_cname");
    }
    assert CountKind(all, "tripwire_error") == CountKind(tw, "tripwire_error") by {
      OnlyFromTripwire(w, "tripwire_error");
    }
    TripwireShort(tw);
  }

  /** A tripwire kind occurs in boot's record only through the tripwire's own event. */
  lemma OnlyFromTripwire(w: World, k: string)
    requires |w.probes| == |Probed(w.manifest)|
    requires k in {"tripwire_ok", "tripwire_mismatch", "tripwire_no_cname", "tripwire_error"}
    ensures CountKind(AllReports(BootReports(w)), k) == CountKind(Tripwire.CheckTripwire(w.cname, w.host).0, k)
  {
    CountNonProbe(w, k);
    CountKindShort(NavEdges(w), k);
  }

  lemma TripwireShort(tw: seq<Report>)
    requires |tw| <= 1
    requires tw != [] ==> tw[0].kind in {"tripwire_ok", "tripwire_mismatch", "tripwire_no_cname", "tripwire_error"}
    ensures TripwireCount(tw) == |tw|
  {
    CountKindShort(tw, "tripwire_ok");
    CountKindShort(tw, "tripwire_mismatch");
    CountKindShort(tw, "tripwire_no_cname");
    CountKindShort(tw, "tripwire_error");
  }

  /** At most one navigation edge, and none without a usable manifest. */
  lemma BootNavEdge(w: World)
    requires |w.probes| == |Probed(w.manifest)|
    ensures CountKind(AllReports(BootReports(w)), "nav_edge") <= 1
    ensures ML.CachedManifest(w.manifest).None? ==> CountKind(AllReports(BootReports(w)), "nav_edge") == 0
  {
    CountNonProbe(w, "nav_edge");
    CountKindShort(NavEdges(w), "nav_edge");
    CountKindShort(Tripwire.CheckTripwire(w.cname, w.host).0, "nav_edge");
  }

  /** One probe event per sibling listed by a usable manifest, none otherwise. */
  lemma BootProbeEvents(w: World)
    requires |w.probes| == |Probed(w.manifest)|
    ensures var all := AllReports(BootReports(w));
      CountKind(all, "sibling_alive") + CountKind(all, "sibling_dead") == |Probed(w.manifest)|
  {
    BootShape(w);
    var pv := [Report("pageview", w.pageview)];
    var me := [ManifestEvent(w)];
    var nav := NavEdges(w);
    var pings := ProbeEvents(w);
    var tw := Tripwire.CheckTripwire(w.cname, w.host).0;
    CountFive(pv, me, nav, pings, tw, "sibling_alive");
    CountFive(pv, me, nav, pings, tw, "sibling_dead");
    CountKindShort(pv, "sibling_alive");
    CountKindShort(pv, "sibling_dead");
    CountKindShort(me, "sibling_alive");
    CountKindShort(me, "sibling_dead");
    CountKindShort(nav, "sibling_alive");
    CountKindShort(nav, "sibling_dead");
    CountKindShort(tw, "sibling_alive");
    CountKindShort(tw, "sibling_dead");
    match ML.CachedManifest(w.manifest)
    case Some(m) =>
      Probes.AliveAndDeadCounts(m.siblings, w.probes);
      Probes.CountLoadedBound(w.probes);
    case None =>
  }
}

/** The operator-facing debug surface `window.__NERVE` (js/nerve.js). The uptime field of
    `status()` is not modelled. */
module DebugApi {
  import opened Values
  import opened EventStore
  import ML = ManifestLoader
  import Probes

  const Version: string := "1.0.0"

  /** How many events of `events` have kind `kind`. */
  function Occurrences(events: seq<Event>, kind: string): nat {
    if events == [] then 0
    else (if events[0].kind == kind then 1 else 0) + Occurrences(events[1..], kind)
  }

  lemma {:induction false} OccurrencesSnoc(events: seq<Event>, e: Event, kind: string)
    ensures Occurrences(events + [e], kind) == Occurrences(events, kind) + (if e.kind == kind then 1 else 0)
  {
    if events == [] {
      assert events + [e] == [e];
      assert [e][1..] == [];
    } else {
      assert (events + [e])[1..] == events[1..] + [e];
      OccurrencesSnoc(events[1..], e, kind);
    }
  }

  /** The `types` tally of `status()`: built event by event, in log order, as
      `types[e.type] = (types[e.type] || 0) + 1`. */
  function Tally(events: seq<Event>): (t: map<string, nat>)
    ensures forall k :: k in t <==> Occurrences(events, k) > 0
    ensures forall k :: k in t ==> t[k] == Occurrences(events, k)
  {
    if events == [] then map[]
    else
      var init := events[..|events| - 1];
      var last := events[|events| - 1];
      var t := Tally(init);
      assert init + [last] == events;
      assert forall k :: Occurrences(events, k) == Occurrences(init, k) + (if last.kind == k then 1 else 0) by {
        forall k
          ensures Occurrences(events, k) == Occurrences(init, k) + (if last.kind == k then 1 else 0)
        {
          OccurrencesSnoc(init, last, k);
        }
      }
      t[last.kind := (if last.kind in t then t[last.kind] else 0) + 1]
  }

  /** Sum of the values of a tally. */
  ghost function MapSum(m: map<string, nat>): nat
    decreases |m|
  {
    if m == map[] then 0
    else
      var k :| k in m;
      assert m.Keys == (m - {k}).Keys + {k};
      m[k] + MapSum(m - {k})
  }

  lemma MapSumRemove(m: map<string, nat>, k: string)
    requires k in m
    ensures MapSum(m) == m[k] + MapSum(m - {k})
    decreases |m|
  {
    var j :| j in m && MapSum(m) == m[j] + MapSum(m - {j});
    if j != k {
      assert (m - {j}).Keys + {j} == m.Keys;
      assert (m - {k}).Keys + {k} == m.Keys;
      MapSumRemove(m - {j}, k);
      MapSumRemove(m - {k}, j);
      assert (m - {j}) - {k} == (m - {k}) - {j};
    }
  }

  lemma MapSumUpdate(m: map<string, nat>, k: string, v: nat)
    ensures MapSum(m[k := v]) == MapSum(m) - (if k in m then m[k] else 0) + v
    ensures k in m ==> MapSum(m) >= m[k]
  {
    MapSumRemove(m[k := v], k);
    assert m[k := v] - {k} == m - {k};
    if k in m {
      MapSumRemove(m, k);
    } else {
      assert m - {k} == m;
    }
  }

  /** The tally of a log adds up to the length of the log. */
  lemma {:induction false} TallyAddsUp(events: seq<Event>)
    ensures MapSum(Tally(events)) == |events|
  {
    if events != [] {
      var init := events[..|events| - 1];
      var last := events[|events| - 1];
      TallyAddsUp(init);
      var t := Tally(init);
      MapSumUpdate(t, last.kind, (if last.kind in t then t[last.kind] else 0) + 1);
    }
  }

  /** The manifest part of `status()`. */
  datatype ManifestSummary = ManifestSummary(self: Option<string>, siblings: seq<string>, networkSize: nat)

  /** What `status()` returns, but for its uptime. */
  datatype Status = Status(version: string, domain: string, events: nat, types: map<string, nat>,
                           manifest: Option<ManifestSummary>)

  /** `__NERVE.status()` on the page `host`, with the module-level `manifest`. */
  function GetStatus(slot: Slot, host: string, manifest: Option<ML.Manifest>): (r: Status)
    ensures r.version == Version && r.domain == host
    ensures r.events == |LoadEvents(slot)|
    ensures forall k :: k in r.types <==> Occurrences(LoadEvents(slot), k) > 0
    ensures forall k :: k in r.types ==> r.types[k] == Occurrences(LoadEvents(slot), k)
    ensures r.manifest.Some? <==> manifest.Some?
    ensures manifest.Some? ==> r.manifest.value == ManifestSummary(
      manifest.value.selfDomain, ML.Listed(manifest.value.siblings), ML.CountOf(manifest.value.network))
  {
    var events := LoadEvents(slot);
    var summary := match manifest
      case Some(m) => Some(ManifestSummary(m.selfDomain, ML.Listed(m.siblings), ML.CountOf(m.network)))
      case None => None;
    Status(Version, host, |events|, Tally(events), summary)
  }

  /** The per-type counts of `status()` add up to its event count. */
  lemma StatusCountsAddUp(slot: Slot, host: string, manifest: Option<ML.Manifest>)
    ensures MapSum(GetStatus(slot, host, manifest).types) == GetStatus(slot, host, manifest).events
  {
    TallyAddsUp(LoadEvents(slot));
  }

  /** What `exportJSON()` serialises. */
  datatype Export = Export(domain: string, exported: string, version: string, events: seq<Event>)

  /** `__NERVE.exportJSON()` at time `now`, before serialisation. */
  function ExportJson(slot: Slot, host: string, now: string): (r: Export)
    ensures r.domain == host && r.exported == now && r.version == Version
    ensures r.events == LoadEvents(slot)
  {
    Export(host, now, Version, LoadEvents(slot))
  }

  /** The export and the status read the same log: same length, same per-type counts. */
  lemma ExportAgreesWithStatus(slot: Slot, host: string, now: string, manifest: Option<ML.Manifest>)
    ensures |ExportJson(slot, host, now).events| == GetStatus(slot, host, manifest).events
    ensures Tally(ExportJson(slot, host, now).events) == GetStatus(slot, host, manifest).types
  {
  }

  /** Whether `localStorage.removeItem` succeeded or threw (storage disabled). */
  datatype RemoveOutcome = Removed | RemoveThrew

  /** `__NERVE.clearEvents()`: the slot is removed and the reply is `"Cleared."`. The call
      is not guarded, so when storage throws the exception reaches the caller: there is no
      reply (`None`) and the slot is as it was. */
  function ClearEvents(slot: Slot, o: RemoveOutcome): (r: (Slot, Option<string>))
    ensures o.Removed? ==> r.0 == Vacant && r.1 == Some("Cleared.")
    ensures o.RemoveThrew? ==> r.0 == slot && r.1.None?
  {
    match o
    case Removed => (Vacant, Some("Cleared."))
    case RemoveThrew => (slot, None)
  }

  /** After a successful clear, the status reports no events and no types, and the export
      is empty; after a clear that threw, both read the log as before. */
  lemma ClearThenStatus(slot: Slot, o: RemoveOutcome, host: string, now: string, manifest: Option<ML.Manifest>)
    ensures o.Removed? ==> GetStatus(ClearEvents(slot, o).0, host, manifest).events == 0
    ensures o.Removed? ==> GetStatus(ClearEvents(slot, o).0, host, manifest).types == map[]
    ensures o.Removed? ==> ExportJson(ClearEvents(slot, o).0, host, now).events == []
    ensures o.RemoveThrew? ==> ExportJson(ClearEvents(slot, o).0, host, now).events == LoadEvents(slot)
  {
  }

  /** `__NERVE.ping(domain)`: one probe of `domain`, whose outcome is `o`; the reply names it. */
  function Ping(domain: string, o: Probes.ProbeOutcome): (r: (seq<Report>, string))
    ensures r.0 == [Probes.ProbeReport(domain, o)]
    ensures r.1 == "Pinging " + domain + "..."
  {
    (Probes.PingSiblings(Some([domain]), [o]), "Pinging " + domain + "...")
  }
}

=== FILE: nerve_checks.dfy ===
/** Fetching the network manifest (js/nerve.js, `loadManifest`). The response body is
    modelled by what `JSON.parse` makes of it. */
module ManifestLoader {
  import opened Values
  import Text

  /** The fields of the manifest object the agent reads; each may be missing. */
  datatype Manifest = Manifest(selfDomain: Option<string>, siblings: Option<seq<string>>,
                               network: Option<seq<string>>)

  /** What the body parses to: the JSON literal `null`, or an object. */
  datatype Document = NullDocument | ObjectDocument(m: Manifest)

  /** The outcome of the request: an HTTP answer whose body parses (`Some`) or does not
      (`None`), or a transport error. */
  datatype Response = Answered(status: int, body: Option<Document>) | NetworkError

  /** The two ways `loadManifest` calls back: with the parsed document, or with an error. */
  datatype Delivery = Delivered(doc: Document) | Failed(msg: string)

  /** Message of the engine's `SyntaxError` for an unparseable body. The engine's exact
      wording is not modelled; only that some message is recorded. */
  const ParseErrorMessage: string := "JSON.parse: unexpected character"

  /** `loadManifest(cb)`: what `cb` receives. */
  function LoadManifest(resp: Response): (r: Delivery)
    ensures r.Delivered? <==> resp.Answered? && resp.status == 200 && resp.body.Some?
    ensures r.Delivered? ==> r.doc == resp.body.value
    ensures resp.NetworkError? ==> r == Failed("manifest network error")
    ensures resp.Answered? && resp.status != 200 ==> r == Failed("manifest " + Text.IntToString(resp.status))
  {
    match resp
    case NetworkError => Failed("manifest network error")
    case Answered(status, body) =>
      if status == 200 then
        match body
        case Some(doc) => Delivered(doc)
        case None => Failed(ParseErrorMessage)
      else Failed("manifest " + Text.IntToString(status))
  }

  /** The module-level `manifest` variable after the request: set to the parsed value only
      on a 200 answer that parses, and usable only when that value is an object. */
  function CachedManifest(resp: Response): (r: Option<Manifest>)
    ensures r.Some? <==> resp.Answered? && resp.status == 200 && resp.body.Some? && resp.body.value.ObjectDocument?
    ensures r.Some? ==> r.value == resp.body.value.m
  {
    match resp
    case Answered(status, Some(ObjectDocument(m))) => if status == 200 then Some(m) else None
    case _ => None
  }

  /** The manifest variable and the callback agree: a manifest is held exactly when the
      callback was handed an object, and it is that object. */
  lemma CachedIsDelivered(resp: Response)
    ensures CachedManifest(resp).Some? <==> LoadManifest(resp).Delivered? && LoadManifest(resp).doc.ObjectDocument?
    ensures CachedManifest(resp).Some? ==> LoadManifest(resp) == Delivered(ObjectDocument(CachedManifest(resp).value))
  {
  }

  /** `list ? list.length : 0`. */
  function CountOf(list: Option<seq<string>>): nat {
    match list
    case Some(xs) => |xs|
    case None => 0
  }

  /** `list` when present, `[]` otherwise. */
  function Listed(list: Option<seq<string>>): seq<string> {
    match list
    case Some(xs) => xs
    case None => []
  }
}

/** Sibling reachability probes (js/nerve.js, `pingSiblings`). Each probe loads
    `https://<domain>/_canary.png`; its outcome, and the clock readings at its start and
    at its callback, are inputs. */
module Probes {
  import opened Values
  import opened EventStore
  import ManifestLoader
  import Text

  const CanaryFile: string := "_canary.png"

  /** The image's `onload` or `onerror`, with `Date.now()` at the start and in the callback. */
  datatype ProbeOutcome = Loaded(start: int, finish: int) | Errored(start: int, finish: int)

  /** The fixed part of the URL probed for `domain`, up to the cache-busting parameter. */
  function CanaryBase(domain: string): string {
    "https://" + domain + "/" + CanaryFile + "?_="
  }

  /** The URL probed for `domain` when the clock reads `now`: the canary image of the
      domain's root, with the clock reading as a cache-busting parameter. */
  function CanaryUrl(domain: string, now: int): (r: string)
    ensures |r| > |CanaryBase(domain)| && r[..|CanaryBase(domain)|] == CanaryBase(domain)
    ensures Text.ParseInt(r[|CanaryBase(domain)|..]) == Some(now)
  {
    var base := CanaryBase(domain);
    var r := base + Text.IntToString(now);
    assert r[..|base|] == base && r[|base|..] == Text.IntToString(now);
    Text.IntToStringRoundTrip(now);
    r
  }

  /** Different clock readings give different URLs, so an image cached by an earlier
      probe does not answer a probe made at another millisecond. */
  lemma CanaryUrlsDiffer(domain: string, now1: int, now2: int)
    requires now1 != now2
    ensures CanaryUrl(domain, now1) != CanaryUrl(domain, now2)
  {
    var b := |CanaryBase(domain)|;
    assert Text.ParseInt(CanaryUrl(domain, now1)[b..]) != Text.ParseInt(CanaryUrl(domain, now2)[b..]);
  }

  /** The event a probe's callback records. */
  function ProbeReport(domain: string, o: ProbeOutcome): (r: Report)
    ensures r.kind == (if o.Loaded? then "sibling_alive" else "sibling_dead")
    ensures r.data.JObj? && r.data.fields.Keys == {"domain", "ms"}
    ensures r.data.fields["domain"] == JStr(domain)
    ensures r.data.fields["ms"].JNum? && r.data.fields["ms"].n + o.start == o.finish
  {
    var data := JObj(map["domain" := JStr(domain), "ms" := JNum(o.finish - o.start)]);
    match o
    case Loaded(_, _) => Report("sibling_alive", data)
    case Errored(_, _) => Report("sibling_dead", data)
  }

  /** Whether every probe's clock ran forward (the wall clock may be set back). */
  predicate ClockForward(outcomes: seq<ProbeOutcome>) {
    forall i :: 0 <= i < |outcomes| ==> outcomes[i].start <= outcomes[i].finish
  }

  /** `pingSiblings(siblings)`: one event per listed domain, in the order the probes were
      started; `outcomes[i]` is the fate of the probe of the i-th domain. Nothing happens
      for a missing or empty list. */
  function PingSiblings(siblings: Option<seq<string>>, outcomes: seq<ProbeOutcome>): (r: seq<Report>)
    requires |outcomes| == |ManifestLoader.Listed(siblings)|
    ensures |r| == |ManifestLoader.Listed(siblings)|
    ensures forall i :: 0 <= i < |r| ==> r[i] == ProbeReport(ManifestLoader.Listed(siblings)[i], outcomes[i])
    ensures ClockForward(outcomes) ==>
      forall i :: 0 <= i < |r| ==>
        r[i].data.JObj? && "ms" in r[i].data.fields && r[i].data.fields["ms"].JNum? && r[i].data.fields["ms"].n >= 0
  {
    var domains := ManifestLoader.Listed(siblings);
    if |domains| == 0 then []
    else seq(|domains|, i requires 0 <= i < |domains| => ProbeReport(domains[i], outcomes[i]))
  }

  function CountLoaded(outcomes: seq<ProbeOutcome>): nat {
    if outcomes == [] then 0 else (if outcomes[0].Loaded? then 1 else 0) + CountLoaded(outcomes[1..])
  }

  lemma {:induction false} ProbeTally(domains: seq<string>, outcomes: seq<ProbeOutcome>)
    requires |outcomes| == |domains|
    ensures CountKind(seq(|domains|, i requires 0 <= i < |domains| => ProbeReport(domains[i], outcomes[i])), "sibling_alive")
         == CountLoaded(outcomes)
    ensures CountKind(seq(|domains|, i requires 0 <= i < |domains| => ProbeReport(domains[i], outcomes[i])), "sibling_dead")
         == |outcomes| - CountLoaded(outcomes)
    decreases |domains|
  {
    var rs := seq(|domains|, i requires 0 <= i < |domains| => ProbeReport(domains[i], outcomes[i]));
    if domains != [] {
      var tail := seq(|domains[1..]|, i requires 0 <= i < |domains[1..]| => ProbeReport(domains[1..][i], outcomes[1..][i]));
      assert rs[1..] == tail;
      ProbeTally(domains[1..], outcomes[1..]);
      assert CountLoaded(outcomes[1..]) <= |outcomes[1..]| by { CountLoadedBound(outcomes[1..]); }
    }
  }

  lemma {:induction false} CountLoadedBound(outcomes: seq<ProbeOutcome>)
    ensures CountLoaded(outcomes) <= |outcomes|
  {
    if outcomes != [] {
      CountLoadedBound(outcomes[1..]);
    }
  }

  /** However the probes resolve, the number of `sibling_alive` events is the number of
      probes that loaded and the number of `sibling_dead` events the number that failed. */
  lemma AliveAndDeadCounts(siblings: Option<seq<string>>, outcomes: seq<ProbeOutcome>)
    requires |outcomes| == |ManifestLoader.Listed(siblings)|
    ensures CountKind(PingSiblings(siblings, outcomes), "sibling_alive") == CountLoaded(outcomes)
    ensures CountKind(PingSiblings(siblings, outcomes), "sibling_dead") == |outcomes| - CountLoaded(outcomes)
  {
    ProbeTally(ManifestLoader.Listed(siblings), outcomes);
  }
}

/** The navigation-graph check (js/nerve.js, `checkNavEdge`). */
module NavGraph {
  import opened Values
  import opened EventStore
  import ManifestLoader

  /** `network.some(d => d === host)`, searched in order. */
  function SomeEquals(network: seq<string>, host: string): (b: bool)
    ensures b <==> host in network
  {
    if network == [] then false
    else network[0] == host || SomeEquals(network[1..], host)
  }

  /** `checkNavEdge()`: `hostOf` is `new URL(referrer).hostname`, `None` when the URL
      constructor throws; `manifest` is the module-level manifest variable. */
  function CheckNavEdge(referrer: string, hostOf: string -> Option<string>, selfHost: string,
                        manifest: Option<ManifestLoader.Manifest>): (r: seq<Report>)
    ensures |r| <= 1
    ensures |r| == 1 <==>
      && referrer != ""
      && hostOf(referrer).Some?
      && hostOf(referrer).value != selfHost
      && manifest.Some? && manifest.value.network.Some?
      && hostOf(referrer).value in manifest.value.network.value
    ensures |r| == 1 ==>
      r[0] == Report("nav_edge", JObj(map["from" := JStr(hostOf(referrer).value), "to" := JStr(selfHost)]))
  {
    if referrer == "" then []
    else
      match hostOf(referrer)
      case None => []
      case Some(refHost) =>
        if refHost != selfHost && manifest.Some? && manifest.value.network.Some?
           && SomeEquals(manifest.value.network.value, refHost)
        then [Report("nav_edge", JObj(map["from" := JStr(refHost), "to" := JStr(selfHost)]))]
        else []
  }
}

/** The integrity tripwire (js/nerve.js, `checkTripwire`): the site's `CNAME` file must
    name the host the page is served from. */
module Tripwire {
  import opened Values
  import opened EventStore
  import Text

  /** The outcome of `GET CNAME?_=<now>`: an HTTP answer with its text, or a transport error. */
  datatype CnameResponse = Answered(status: int, body: string) | TransportError

  /** The check's classification of a response. `Silent` is an answer that is neither
      200 nor 404: nothing is recorded. */
  datatype Verdict =
    | Match(cname: string)
    | Mismatch(expected: string, actual: string)
    | NoCname
    | Unreachable
    | Silent

  function Classify(resp: CnameResponse, host: string): (v: Verdict)
    ensures v.Match? <==> resp.Answered? && resp.status == 200 && Text.Trim(resp.body) == host
    ensures v.Match? ==> v.cname == host
    ensures v.Mismatch? <==> resp.Answered? && resp.status == 200 && Text.Trim(resp.body) != host
    ensures v.Mismatch? ==> v.expected == Text.Trim(resp.body) && v.actual == host
    ensures v.NoCname? <==> resp.Answered? && resp.status == 404
    ensures v.Unreachable? <==> resp.TransportError?
    ensures v.Silent? <==> resp.Answered? && resp.status != 200 && resp.status != 404
  {
    match resp
    case TransportError => Unreachable
    case Answered(status, body) =>
      if status == 200 then
        var cname := Text.Trim(body);
        if cname == host then Match(cname) else Mismatch(cname, host)
      else if status == 404 then NoCname
      else Silent
  }

  /** The events a verdict records. */
  function VerdictReports(v: Verdict): (r: seq<Report>)
    ensures |r| <= 1
    ensures |r| == 0 <==> v.Silent?
  {
    match v
    case Match(cname) => [Report("tripwire_ok", JObj(map["cname" := JStr(cname)]))]
    case Mismatch(expected, actual) =>
      [Report("tripwire_mismatch", JObj(map["expected" := JStr(expected), "actual" := JStr(actual)]))]
    case NoCname => [Report("tripwire_no_cname", JObj(map["status" := JNum(404)]))]
    case Unreachable => [Report("tripwire_error", JObj(map["msg" := JStr("network")]))]
    case Silent => []
  }

  /** Whether the verdict is also written to the console as a warning. */
  predicate Warns(v: Verdict) {
    v.Mismatch?
  }

  /** `checkTripwire()` for the response `resp` on host `host`: the recorded events and
      whether the operator is warned. */
  function CheckTripwire(resp: CnameResponse, host: string): (r: (seq<Report>, bool))
    ensures |r.0| <= 1
    ensures resp.Answered? && resp.status == 200 && Text.Trim(resp.body) == host ==>
      r.0 == [Report("tripwire_ok", JObj(map["cname" := JStr(host)]))]
    ensures resp.Answered? && resp.status == 200 && Text.Trim(resp.body) != host ==>
      r.0 == [Report("tripwire_mismatch", JObj(map["expected" := JStr(Text.Trim(resp.body)), "actual" := JStr(host)]))]
    ensures resp.Answered? && resp.status == 404 ==>
      r.0 == [Report("tripwire_no_cname", JObj(map["status" := JNum(404)]))]
    ensures resp.TransportError? ==> r.0 == [Report("tripwire_error", JObj(map["msg" := JStr("network")]))]
    ensures resp.Answered? && resp.status != 200 && resp.status != 404 ==> r.0 == []
    ensures r.1 <==> r.0 != [] && r.0[0].kind == "tripwire_mismatch"
  {
    var v := Classify(resp, host);
    (VerdictReports(v), Warns(v))
  }
}

=== FILE: nerve_store.dfy ===
/** The optional analytics bridge of the monitoring agent (js/nerve.js, `bridgeGA4`). */
module Analytics {
  import opened Values
  import Text

  /** Longest `nerve_data` text forwarded to the analytics hook. */
  const PayloadLimit: nat := 100

  /** Whether the page defines a global `gtag` function, and whether calling it throws.
      A throwing hook is swallowed, so `throws` never changes anything the agent does. */
  datatype GtagHook = NoGtag | Gtag(throws: bool)

  /** One call `gtag(command, name, {nerve_domain: domain, nerve_data: data})`. */
  datatype GtagCall = GtagCall(command: string, name: string, domain: string, data: string)

  /** The call the bridge makes for an event of kind `kind` with argument `data`, if any.
      `stringify` is the engine's `JSON.stringify`, which this model does not define. */
  function BridgeGA4(hook: GtagHook, kind: string, data: Option<Json>, host: string,
                     stringify: Json -> string): (r: Option<GtagCall>)
    ensures r.None? <==> hook.NoGtag?
    ensures r.Some? ==>
      && r.value.command == "event"
      && r.value.name == "nerve_" + kind
      && r.value.domain == host
      && |r.value.data| == (if |stringify(OrEmptyObject(data))| <= PayloadLimit
                            then |stringify(OrEmptyObject(data))| else PayloadLimit)
      && r.value.data == stringify(OrEmptyObject(data))[..|r.value.data|]
      && (|stringify(OrEmptyObject(data))| <= PayloadLimit ==> r.value.data == stringify(OrEmptyObject(data)))
  {
    match hook
    case NoGtag => None
    case Gtag(_) =>
      Some(GtagCall("event", "nerve_" + kind, host, Text.Prefix(stringify(OrEmptyObject(data)), PayloadLimit)))
  }
}

/** The agent's persistent, bounded event log (js/nerve.js, `loadEvents`, `saveEvents`,
    `pushEvent`). The storage slot under key `_egex_nerve` is modelled by its parsed
    content; JSON text is not modelled. */
module EventStore {
  import opened Values
  import Analytics

  /** Capacity of the log. */
  const MaxEvents: nat := 500

  /** One stored event `{t, type, d}`: ISO timestamp, event kind, payload. */
  datatype Event = Event(t: string, kind: string, d: Json)

  /** An event not yet stamped: what a check decides to record. */
  datatype Report = Report(kind: string, data: Json)

  /** What the storage slot holds: nothing (missing or empty string), text that does not
      parse (or storage that throws on access), or a parsed array of events. */
  datatype Slot = Vacant | Garbled | Holds(events: seq<Event>)

  /** Whether `localStorage.setItem` succeeded or threw (quota exceeded, storage disabled). */
  datatype WriteOutcome = Persisted | WriteFailed

  /** `loadEvents()`: the stored events, or none when the slot is missing or unreadable. */
  function LoadEvents(slot: Slot): (r: seq<Event>)
    ensures slot.Holds? ==> r == slot.events
    ensures !slot.Holds? ==> r == []
  {
    match slot
    case Holds(events) => events
    case _ => []
  }

  /** The FIFO cap of `saveEvents`: the last `MaxEvents` events, in their order. */
  function KeepLast(events: seq<Event>): (r: seq<Event>)
    ensures |r| == if |events| > MaxEvents then MaxEvents else |events|
    ensures forall i :: 0 <= i < |r| ==> r[i] == events[|events| - |r| + i]
  {
    if |events| > MaxEvents then events[|events| - MaxEvents..] else events
  }

  /** `saveEvents(events)`: on a successful write the slot holds the capped log; a failed
      write is swallowed and leaves the slot as it was. */
  function SaveEvents(slot: Slot, events: seq<Event>, w: WriteOutcome): (r: Slot)
    ensures w.Persisted? ==> r.Holds? && LoadEvents(r) == KeepLast(events)
    ensures w.WriteFailed? ==> r == slot
  {
    match w
    case Persisted => Holds(KeepLast(events))
    case WriteFailed => slot
  }

  /** The page environment `pushEvent` and the bridge read. */
  datatype Page = Page(host: string, gtag: Analytics.GtagHook, stringify: Json -> string)

  /** Result of `pushEvent`: the new slot, the event returned to the caller, and the
      analytics call made (if any). */
  datatype Pushed = Pushed(slot: Slot, event: Event, bridged: Option<Analytics.GtagCall>)

  /** `pushEvent(type, data)` at time `t`: load, append, save, forward to the bridge. */
  function PushEvent(slot: Slot, t: string, kind: string, data: Option<Json>, w: WriteOutcome,
                     page: Page): (r: Pushed)
    ensures r.event == Event(t, kind, OrEmptyObject(data))
    ensures w.Persisted? ==>
      var before := LoadEvents(slot);
      var after := LoadEvents(r.slot);
      && |after| >= 1 && after[|after| - 1] == r.event
      && |after| <= MaxEvents
      && (|before| < MaxEvents ==> after == before + [r.event])
      && (|before| >= MaxEvents ==> after == before[|before| - (MaxEvents - 1)..] + [r.event])
    ensures w.WriteFailed? ==> r.slot == slot
    ensures r.bridged == Analytics.BridgeGA4(page.gtag, kind, data, page.host, page.stringify)
  {
    var events := LoadEvents(slot);
    var evt := Event(t, kind, OrEmptyObject(data));
    var saved := SaveEvents(slot, events + [evt], w);
    assert w.Persisted? && |events| >= MaxEvents ==>
      LoadEvents(saved) == events[|events| - (MaxEvents - 1)..] + [evt];
    Pushed(saved, evt, Analytics.BridgeGA4(page.gtag, kind, data, page.host, page.stringify))
  }

  /** Whatever the analytics hook is, and whether it throws, the slot and the returned
      event are the same as without it. */
  lemma BridgeNeverAffectsAppend(slot: Slot, t: string, kind: string, data: Option<Json>,
                                 w: WriteOutcome, page: Page, other: Analytics.GtagHook)
    ensures PushEvent(slot, t, kind, data, w, page).slot
         == PushEvent(slot, t, kind, data, w, page.(gtag := other)).slot
    ensures PushEvent(slot, t, kind, data, w, page).event
         == PushEvent(slot, t, kind, data, w, page.(gtag := other)).event
  {
  }

  /** Reports stamped with their times, in order. */
  function Stamp(rs: seq<Report>, times: seq<string>): (es: seq<Event>)
    requires |times| == |rs|
    ensures |es| == |rs|
    ensures forall i :: 0 <= i < |rs| ==> es[i] == Event(times[i], rs[i].kind, rs[i].data)
  {
    seq(|rs|, i requires 0 <= i < |rs| => Event(times[i], rs[i].kind, rs[i].data))
  }

  /** Number of reports of kind `kind`. */
  function CountKind(rs: seq<Report>, kind: string): nat {
    if rs == [] then 0 else (if rs[0].kind == kind then 1 else 0) + CountKind(rs[1..], kind)
  }

  lemma {:induction false} CountKindAppend(a: seq<Report>, b: seq<Report>, kind: string)
    ensures CountKind(a + b, kind) == CountKind(a, kind) + CountKind(b, kind)
  {
    if a == [] {
      assert a + b == b;
    } else {
      CountKindAppend(a[1..], b, kind);
      assert (a + b)[1..] == a[1..] + b;
    }
  }

  lemma CountKindShort(rs: seq<Report>, kind: string)
    requires |rs| <= 1
    ensures CountKind(rs, kind) == (if |rs| == 1 && rs[0].kind == kind then 1 else 0)
  {
    if |rs| == 1 {
      assert rs[1..] == [];
    }
  }

  /** Counting ignores order: any rearrangement of the reports has the same counts. */
  lemma {:induction false} CountKindPermutation(a: seq<Report>, b: seq<Report>, kind: string)
    requires multiset(a) == multiset(b)
    ensures CountKind(a, kind) == CountKind(b, kind)
    decreases |a|
  {
    if a != [] {
      assert a[0] in multiset(b);
      var j :| 0 <= j < |b| && b[j] == a[0];
      RemoveMatching(a, b, j);
      CountKindPermutation(a[1..], b[..j] + b[j + 1..], kind);
      CountKindRemove(b, j, kind);
    } else {
      assert |b| == |multiset(b)|;
    }
  }

  /** Taking the first element of `a` and a matching element of `b` out of two
      rearrangements of each other leaves rearrangements of each other. */
  lemma RemoveMatching<T>(a: seq<T>, b: seq<T>, j: nat)
    requires multiset(a) == multiset(b) && a != [] && j < |b| && b[j] == a[0]
    ensures multiset(a[1..]) == multiset(b[..j] + b[j + 1..])
  {
    assert a == [a[0]] + a[1..];
    assert b == b[..j] + [b[j]] + b[j + 1..];
    assert multiset(a[1..]) == multiset(a) - multiset{a[0]};
    assert multiset(b[..j] + b[j + 1..]) == multiset(b[..j]) + multiset(b[j + 1..]);
  }

  /** Taking the report at `j` out of `rs` lowers its kind's count by one. */
  lemma CountKindRemove(rs: seq<Report>, j: nat, kind: string)
    requires j < |rs|
    ensures CountKind(rs, kind) == CountKind(rs[..j] + rs[j + 1..], kind) + (if rs[j].kind == kind then 1 else 0)
  {
    assert rs == rs[..j] + [rs[j]] + rs[j + 1..];
    CountKindAppend(rs[..j] + [rs[j]], rs[j + 1..], kind);
    CountKindAppend(rs[..j], [rs[j]], kind);
    CountKindAppend(rs[..j], rs[j + 1..], kind);
    CountKindShort([rs[j]], kind);
  }

  /** What one successful `pushEvent` of the report `r` at time `t` does to the slot:
      load, append, save. */
  function PushStep(slot: Slot, r: Report, t: string): Slot {
    SaveEvents(slot, LoadEvents(slot) + [Event(t, r.kind, r.data)], Persisted)
  }

  /** For an object payload, `PushStep` is exactly the slot `PushEvent` leaves, whatever
      the page and its analytics hook. */
  lemma PushStepIsPushEvent(slot: Slot, r: Report, t: string, page: Page)
    requires r.data.JObj?
    ensures PushEvent(slot, t, r.kind, Some(r.data), Persisted, page).slot == PushStep(slot, r, t)
  {
  }

  /** Reports pushed one after another, every write succeeding. */
  function PushAll(slot: Slot, rs: seq<Report>, times: seq<string>): Slot
    requires |times| == |rs|
    decreases rs
  {
    if rs == [] then slot else PushAll(PushStep(slot, rs[0], times[0]), rs[1..], times[1..])
  }

  /** Capping a capped log after appending is capping once. */
  lemma KeepLastAbsorbs(xs: seq<Event>, ys: seq<Event>)
    ensures KeepLast(KeepLast(xs) + ys) == KeepLast(xs + ys)
  {
    var d := if |xs| > MaxEvents then |xs| - MaxEvents else 0;
    var all := xs + ys;
    assert KeepLast(xs) == xs[d..];
    var z := all[d..];
    assert KeepLast(xs) + ys == z by { DropAppend(xs, ys, d); }
    if |z| > MaxEvents {
      assert KeepLast(z) == all[|all| - MaxEvents..] by { DropDrop(all, d, |z| - MaxEvents); }
    } else if d > 0 {
      assert ys == [] && |z| == MaxEvents;
      assert all == xs;
    }
  }

  lemma DropAppend<T>(xs: seq<T>, ys: seq<T>, d: nat)
    requires d <= |xs|
    ensures xs[d..] + ys == (xs + ys)[d..]
  {
  }

  lemma DropDrop<T>(v: seq<T>, d: nat, e: nat)
    requires d + e <= |v|
    ensures v[d..][e..] == v[d + e..]
  {
  }

  /** One successful push is append-then-cap. */
  lemma PushOne(slot: Slot, r: Report, t: string)
    ensures LoadEvents(PushStep(slot, r, t)) == KeepLast(LoadEvents(slot) + [Event(t, r.kind, r.data)])
  {
  }

  lemma StampCons(rs: seq<Report>, times: seq<string>)
    requires |times| == |rs| > 0
    ensures Stamp(rs, times) == [Event(times[0], rs[0].kind, rs[0].data)] + Stamp(rs[1..], times[1..])
  {
  }

  /** Events appended one at a time, the log capped after each. */
  function AppendEach(log: seq<Event>, es: seq<Event>): seq<Event>
    decreases |es|
  {
    if es == [] then log else AppendEach(KeepLast(log + [es[0]]), es[1..])
  }

  /** A run of pushes appends the stamped reports one at a time. */
  lemma {:induction false} PushAllAppends(slot: Slot, rs: seq<Report>, times: seq<string>)
    requires |times| == |rs|
    ensures LoadEvents(PushAll(slot, rs, times)) == AppendEach(LoadEvents(slot), Stamp(rs, times))
    decreases rs
  {
    if rs != [] {
      var es := Stamp(rs, times);
      var next := PushStep(slot, rs[0], times[0]);
      assert LoadEvents(next) == KeepLast(LoadEvents(slot) + [es[0]]) by {
        PushOne(slot, rs[0], times[0]);
      }
      assert es[1..] == Stamp(rs[1..], times[1..]) by {
        StampCons(rs, times);
      }
      PushAllAppends(next, rs[1..], times[1..]);
    }
  }

  /** Appending one at a time with a cap keeps what one cap of the whole keeps, unless
      nothing is appended to a log that is over the cap (the cap is applied only on save). */
  lemma {:induction false} AppendEachCaps(log: seq<Event>, es: seq<Event>)
    requires |log| <= MaxEvents || es != []
    ensures AppendEach(log, es) == KeepLast(log + es)
    decreases |es|
  {
    if es == [] {
      assert log + es == log;
    } else {
      var next := KeepLast(log + [es[0]]);
      assert AppendEach(log, es) == AppendEach(next, es[1..]);
      AppendEachCaps(next, es[1..]);
      assert KeepLast(next + es[1..]) == KeepLast(log + es) by {
        FifoStep(log, es[0], es[1..]);
        assert [es[0]] + es[1..] == es;
      }
    }
  }

  /** One append-and-cap followed by the rest is the same as capping once. */
  lemma FifoStep(log: seq<Event>, e: Event, rest: seq<Event>)
    ensures KeepLast(KeepLast(log + [e]) + rest) == KeepLast(log + ([e] + rest))
  {
    KeepLastAbsorbs(log + [e], rest);
    SeqAssoc(log, [e], rest);
  }

  lemma SeqAssoc<T>(a: seq<T>, b: seq<T>, c: seq<T>)
    ensures (a + b) + c == a + (b + c)
  {
  }

  /** The FIFO law: pushing any number of events leaves exactly the last `MaxEvents`
      events of the old log and the new events together, in order. A log
      stored over the cap by other code is capped by the first push; with no push it
      stays as it is. */
  lemma FifoLaw(slot: Slot, rs: seq<Report>, times: seq<string>)
    requires |times| == |rs|
    requires |LoadEvents(slot)| <= MaxEvents || rs != []
    ensures LoadEvents(PushAll(slot, rs, times)) == KeepLast(LoadEvents(slot) + Stamp(rs, times))
  {
    PushAllAppends(slot, rs, times);
    AppendEachCaps(LoadEvents(slot), Stamp(rs, times));
  }

  /** The eviction law for long runs: after at least `MaxEvents` pushes the log holds
      exactly `MaxEvents` events, the last ones pushed, in the order they were pushed. */
  lemma FifoEviction(slot: Slot, rs: seq<Report>, times: seq<string>)
    requires |times| == |rs| >= MaxEvents
    ensures LoadEvents(PushAll(slot, rs, times)) == Stamp(rs, times)[|rs| - MaxEvents..]
  {
    FifoLaw(slot, rs, times);
    KeepLastOfLong(LoadEvents(slot), Stamp(rs, times));
  }

  /** When the appended part alone fills the log, none of the old log survives. */
  lemma KeepLastOfLong(xs: seq<Event>, ys: seq<Event>)
    requires |ys| >= MaxEvents
    ensures KeepLast(xs + ys) == ys[|ys| - MaxEvents..]
  {
    var all := xs + ys;
    var kept := KeepLast(all);
    var want := ys[|ys| - MaxEvents..];
    assert |kept| == MaxEvents == |want|;
    forall i | 0 <= i < MaxEvents
      ensures kept[i] == want[i]
    {
      var k := |all| - MaxEvents + i;
      assert kept[i] == all[k];
      assert all[k] == ys[k - |xs|];
    }
  }
}

=== FILE: text.dfy ===
/** String operations the modelled code borrows from JavaScript: `String.prototype.trim`,
    `toLowerCase` (for the characters that matter), `substring(0, n)` and the decimal
    rendering of integers. */
module Text {
  import opened Values

  /** The characters `trim` removes: ECMAScript WhiteSpace (tab, vertical tab, form feed,
      space, no-break space, the byte order mark and the Unicode space separators) and
      LineTerminator (line feed, carriage return, line and paragraph separators). */
  predicate IsSpace(c: char) {
    || c == '\t' || c == '\n' || c == '\U{000B}' || c == '\U{000C}' || c == '\r' || c == ' '
    || c == '\U{00A0}' || c == '\U{1680}' || ('\U{2000}' <= c <= '\U{200A}')
    || c == '\U{2028}' || c == '\U{2029}' || c == '\U{202F}' || c == '\U{205F}'
    || c == '\U{3000}' || c == '\U{FEFF}'
  }

  predicate AllSpace(s: string) {
    forall i :: 0 <= i < |s| ==> IsSpace(s[i])
  }

  /** Leading whitespace removed: the longest suffix of `s` that does not start with
      whitespace, everything before it being whitespace. */
  function TrimStart(s: string): (r: string)
    ensures |r| <= |s| && r == s[|s| - |r|..]
    ensures AllSpace(s[..|s| - |r|])
    ensures r == [] || !IsSpace(r[0])
  {
    if s != [] && IsSpace(s[0]) then
      var t := s[1..];
      var r := TrimStart(t);
      assert r == s[|s| - |r|..] by {
        assert t[|t| - |r|..] == s[|s| - |r|..];
      }
      var pre := s[..|s| - |r|];
      assert AllSpace(pre) by {
        forall j | 0 <= j < |pre|
          ensures IsSpace(pre[j])
        {
          if j > 0 {
            assert pre[j] == t[..|t| - |r|][j - 1];
          }
        }
      }
      r
    else s
  }

  /** Trailing whitespace removed: the longest prefix of `s` that does not end with
      whitespace, everything after it being whitespace. */
  function TrimEnd(s: string): (r: string)
    ensures |r| <= |s| && r == s[..|r|]
    ensures AllSpace(s[|r|..])
    ensures r == [] || !IsSpace(r[|r| - 1])
  {
    if s != [] && IsSpace(s[|s| - 1]) then
      var init := s[..|s| - 1];
      var r := TrimEnd(init);
      assert AllSpace(s[|r|..]) by {
        forall j | 0 <= j < |s| - |r|
          ensures IsSpace(s[|r|..][j])
        {
          if j < |s| - 1 - |r| {
            assert s[|r|..][j] == init[|r|..][j];
          }
        }
      }
      r
    else s
  }

  /** `s.trim()`: `s` with its leading and trailing whitespace removed. */
  function Trim(s: string): (r: string)
    ensures |r| <= |s|
    ensures r == [] <==> AllSpace(s)
    ensures r != [] ==> !IsSpace(r[0]) && !IsSpace(r[|r| - 1])
    ensures exists i, j :: 0 <= i <= j <= |s| && r == s[i..j] && AllSpace(s[..i]) && AllSpace(s[j..])
  {
    var a := TrimStart(s);
    var r := TrimEnd(a);
    SplitTrimmed(s, a, r);
    r
  }

  /** What a trimmed string is: `a` is `s` less a whitespace prefix, and `r` is `a` less a
      whitespace suffix, neither end of `r` being whitespace. */
  lemma SplitTrimmed(s: string, a: string, r: string)
    requires |a| <= |s| && a == s[|s| - |a|..] && AllSpace(s[..|s| - |a|])
    requires |r| <= |a| && r == a[..|r|] && AllSpace(a[|r|..])
    requires r == [] || (!IsSpace(r[0]) && !IsSpace(r[|r| - 1]))
    ensures |r| <= |s|
    ensures r == [] <==> AllSpace(s)
    ensures exists i, j :: 0 <= i <= j <= |s| && r == s[i..j] && AllSpace(s[..i]) && AllSpace(s[j..])
  {
    var i := |s| - |a|;
    assert r == s[i..i + |r|] && AllSpace(s[i + |r|..]) by {
      SliceOfSuffix(s, i, |r|);
    }
    if r == [] {
      assert AllSpace(s) by {
        assert a[|r|..] == a;
        AllSpaceAppend(s[..i], a);
        assert s[..i] + a == s;
      }
    } else {
      assert s[i] == r[0];
    }
  }

  lemma SliceOfSuffix<T>(s: seq<T>, i: nat, k: nat)
    requires i + k <= |s|
    ensures s[i..][..k] == s[i..i + k] && s[i..][k..] == s[i + k..]
  {
  }

  lemma AllSpaceAppend(x: string, y: string)
    requires AllSpace(x) && AllSpace(y)
    ensures AllSpace(x + y)
  {
    forall k | 0 <= k < |x + y|
      ensures IsSpace((x + y)[k])
    {
      if k >= |x| {
        assert (x + y)[k] == y[k - |x|];
      }
    }
  }

  /** `c.toLowerCase()` on ASCII letters; every other character is left as it is. */
  function LowerChar(c: char): (r: char)
    ensures 'A' <= c <= 'Z' ==> r != c && r as int == c as int + 32
    ensures !('A' <= c <= 'Z') ==> r == c
  {
    if 'A' <= c <= 'Z' then (c as int + 32) as char else c
  }

  function Lower(s: string): (r: string)
    ensures |r| == |s|
    ensures forall i :: 0 <= i < |s| ==> r[i] == LowerChar(s[i])
  {
    seq(|s|, i requires 0 <= i < |s| => LowerChar(s[i]))
  }

  /** `s.substring(0, n)`: the first `n` characters, or all of `s` when it is shorter. */
  function Prefix(s: string, n: nat): (r: string)
    ensures |r| == if |s| <= n then |s| else n
    ensures r == s[..|r|]
    ensures |s| <= n ==> r == s
  {
    if |s| <= n then s else s[..n]
  }

  // ---- Decimal numerals: how JavaScript prints an integer, and reading one back ----

  predicate IsDigit(c: char) {
    '0' <= c <= '9'
  }

  predicate AllDigits(s: string) {
    forall i :: 0 <= i < |s| ==> IsDigit(s[i])
  }

  function DigitChar(d: nat): (c: char)
    requires d < 10
    ensures IsDigit(c) && c as int - '0' as int == d
  {
    ('0' as int + d) as char
  }

  /** The decimal numeral of `n`, without leading zeros. */
  function NatToString(n: nat): (r: string)
    ensures |r| >= 1 && AllDigits(r)
    ensures |r| > 1 ==> r[0] != '0'
  {
    if n < 10 then [DigitChar(n)]
    else
      var r := NatToString(n / 10) + [DigitChar(n % 10)];
      r
  }

  /** `String(n)` for an integer `n` whose magnitude is below 10^21 (larger ones JavaScript
      prints in exponent notation): a minus sign before the numeral of `|n|` when negative. */
  function IntToString(n: int): (r: string)
    ensures |r| >= 1
    ensures n >= 0 ==> AllDigits(r)
    ensures n < 0 ==> r[0] == '-' && AllDigits(r[1..])
  {
    if n < 0 then "-" + NatToString(-n) else NatToString(n)
  }

  /** The value of a string of decimal digits. */
  function DigitsValue(s: string): nat
    requires AllDigits(s)
  {
    if s == [] then 0 else DigitsValue(s[..|s| - 1]) * 10 + (s[|s| - 1] as int - '0' as int)
  }

  /** A numeral as `String` prints a natural number: digits, no leading zero unless it is "0". */
  predicate CanonicalDigits(s: string) {
    |s| >= 1 && AllDigits(s) && (|s| > 1 ==> s[0] != '0')
  }

  /** Reads an integer written as `String` prints it; `None` for anything else, including
      leading zeros and "-0". */
  function ParseInt(s: string): Option<int> {
    if |s| >= 2 && s[0] == '-' && CanonicalDigits(s[1..]) && s[1] != '0' then
      Some(-(DigitsValue(s[1..]) as int))
    else if CanonicalDigits(s) then Some(DigitsValue(s) as int)
    else None
  }

  lemma {:induction false} NatToStringValue(n: nat)
    ensures DigitsValue(NatToString(n)) == n
  {
    if n >= 10 {
      var s := NatToString(n);
      NatToStringValue(n / 10);
      assert s[..|s| - 1] == NatToString(n / 10);
    }
  }

  /** Printing an integer and reading it back gives the integer. */
  lemma IntToStringRoundTrip(n: int)
    ensures ParseInt(IntToString(n)) == Some(n)
  {
    if n < 0 {
      NatToStringValue(-n);
      assert IntToString(n)[1..] == NatToString(-n);
    } else {
      NatToStringValue(n);
    }
  }

  /** A numeral with a nonzero first digit has a positive value. */
  lemma {:induction false} LeadingDigitPositive(s: string)
    requires |s| >= 1 && AllDigits(s) && s[0] != '0'
    ensures DigitsValue(s) >= 1
  {
    if |s| > 1 {
      LeadingDigitPositive(s[..|s| - 1]);
    }
  }

  /** A canonical numeral is the printed form of its own value. */
  lemma {:induction false} CanonicalIsPrinted(s: string)
    requires CanonicalDigits(s)
    ensures s == NatToString(DigitsValue(s))
  {
    if |s| > 1 {
      var init := s[..|s| - 1];
      CanonicalIsPrinted(init);
      LeadingDigitPositive(init);
      var v := DigitsValue(s);
      assert v / 10 == DigitsValue(init) && v % 10 == s[|s| - 1] as int - '0' as int;
      assert s == init + [s[|s| - 1]];
    }
  }

  /** Reading a numeral back determines its text: only `IntToString(n)` parses to `n`. */
  lemma ParseIntInverse(s: string, n: int)
    requires ParseInt(s) == Some(n)
    ensures s == IntToString(n)
  {
    if |s| >= 2 && s[0] == '-' && CanonicalDigits(s[1..]) && s[1] != '0' {
      CanonicalIsPrinted(s[1..]);
      LeadingDigitPositive(s[1..]);
      assert s == "-" + s[1..];
    } else {
      CanonicalIsPrinted(s);
    }
  }
}

=== FILE: values.dfy ===
/** Values the monitoring agent and the dashboards exchange: an optional value, and the
    JSON-shaped data that events carry. JavaScript's `undefined` is `None`. */
module Values {

  datatype Option<+T> = None | Some(value: T) {

    /** The value, or `default` when there is none. */
    function GetOr(default: T): T {
      match this
      case Some(v) => v
      case None => default
    }
  }

  /** A JSON value. Numbers are integers here: the numbers the modelled checks compute
      (counts, HTTP statuses, elapsed milliseconds) are whole. Fractional numbers, such as
      the pageview's device pixel ratio, are not represented. */
  datatype Json =
    | JNull
    | JBool(b: bool)
    | JNum(n: int)
    | JStr(s: string)
    | JArr(items: seq<Json>)
    | JObj(fields: map<string, Json>)

  /** JavaScript truthiness of an argument that may be missing: `undefined`, `null`,
      `false`, `0` and `""` are falsy, everything else (every object and array) is truthy. */
  predicate Falsy(v: Option<Json>) {
    v.None? || v == Some(JNull) || v == Some(JBool(false)) || v == Some(JNum(0)) || v == Some(JStr(""))
  }

  /** The empty object `{}`. */
  const EmptyObject: Json := JObj(map[])

  /** `data || {}`: the argument when it is truthy, the empty object otherwise. */
  function OrEmptyObject(v: Option<Json>): (r: Json)
    ensures Falsy(v) ==> r == EmptyObject
    ensures !Falsy(v) ==> r == v.value
  {
    if Falsy(v) then EmptyObject else v.value
  }
}

=== FILE: wireframe.dfy ===
/** The wireframe text tool (js/wireframe-text.js): when enabled by the page's
    `wireframe` query parameter, it replaces the visible text of the page with fixed
    placeholder strings, leaving structure, markup and script-like subtrees alone. The
    document is a finite tree. */
module Wireframe {
  import opened Values
  import Text

  // ---- The enable flag ----

  /** The values of `wireframe` that turn the tool on, after lower-casing. */
  predicate IsEnablingValue(v: string) {
    v == "1" || v == "true" || v == "on"
  }

  /** `s` spells `word` (a lower-case word) with each letter in either case. */
  predicate SpelledIgnoringCase(s: string, word: string) {
    |s| == |word| && forall i :: 0 <= i < |s| ==> s[i] == word[i] || Text.LowerChar(s[i]) == word[i]
  }

  lemma LowerIsWord(s: string, word: string)
    requires forall i :: 0 <= i < |word| ==> !('A' <= word[i] <= 'Z')
    ensures Text.Lower(s) == word <==> SpelledIgnoringCase(s, word)
  {
    if SpelledIgnoringCase(s, word) {
      forall i | 0 <= i < |s|
        ensures Text.Lower(s)[i] == word[i]
      {
        if s[i] == word[i] {
          assert Text.LowerChar(s[i]) == s[i];
        }
      }
    }
  }

  /** `(params.get("wireframe") || "").toLowerCase()` is `"1"`, `"true"` or `"on"`;
      `None` is a missing parameter. The tool is on exactly when the parameter spells `1`,
      `true` or `on` in any mix of upper and lower case. */
  function Enabled(param: Option<string>): (r: bool)
    ensures param.None? ==> !r
    ensures r <==>
      param.Some? && (param.value == "1" || SpelledIgnoringCase(param.value, "true")
                      || SpelledIgnoringCase(param.value, "on"))
  {
    var s := param.GetOr("");
    EnablingSpellings(s);
    IsEnablingValue(Text.Lower(s))
  }

  lemma EnablingSpellings(s: string)
    ensures IsEnablingValue(Text.Lower(s)) <==>
      s == "1" || SpelledIgnoringCase(s, "true") || SpelledIgnoringCase(s, "on")
  {
    LowerIsWord(s, "1");
    LowerIsWord(s, "true");
    LowerIsWord(s, "on");
    if SpelledIgnoringCase(s, "1") {
      assert s[0] == '1' || Text.LowerChar(s[0]) == '1';
      assert s == "1";
    }
  }

  // ---- The document ----

  /** A DOM node: text, an element (tag name as `tagName` reports it, class list,
      `placeholder` property, children), or anything else (a comment, say). */
  datatype Node =
    | Text(content: string)
    | Element(tag: string, classes: set<string>, placeholder: string, children: seq<Node>)
    | Other

  /** Tags whose whole subtree is left alone. */
  const SkipTags: set<string> := {"SCRIPT", "STYLE", "NOSCRIPT", "SVG", "CANVAS"}

  const InputPlaceholder: string := "Enter your input here"

  /** `isWhitespaceOnly(text)`: `!text || !text.trim()`, that is, missing, empty or made
      only of whitespace. */
  predicate IsWhitespaceOnly(text: Option<string>): (r: bool)
    ensures r <==> text.None? || Text.AllSpace(text.value)
  {
    text.None? || Text.Trim(text.value) == ""
  }

  /** The fixed placeholder of each tag whose text is always replaced. */
  const FixedPlaceholders: map<string, string> := map[
    "H1" := "Main Page Title",
    "H2" := "Section Heading",
    "H3" := "Subsection Title",
    "H4" := "Minor Heading",
    "H5" := "Detail Heading",
    "H6" := "Fine Detail",
    "P" := "Paragraph text content describing the topic.",
    "LI" := "List item description.",
    "SPAN" := "Inline text span.",
    "BUTTON" := "Button Label"
  ]

  /** `placeholderForElement(el)`: the text an element's own text is replaced with.
      `inNav` is whether `el.closest("nav")` finds an ancestor. Links get no placeholder
      inside navigation, "Call to Action" when styled as a button, "Link Text" otherwise;
      every tag outside the table and other than `A` gets none. */
  function PlaceholderFor(tag: string, classes: set<string>, inNav: bool): (r: Option<string>)
    ensures tag in FixedPlaceholders ==> r == Some(FixedPlaceholders[tag])
    ensures tag == "A" ==> r == (if inNav then None
                                 else if "btn" in classes || "button" in classes then Some("Call to Action")
                                 else Some("Link Text"))
    ensures tag !in FixedPlaceholders && tag != "A" ==> r.None?
  {
    if tag == "" then None
    else if tag == "H1" then Some("Main Page Title")
    else if tag == "H2" then Some("Section Heading")
    else if tag == "H3" then Some("Subsection Title")
    else if tag == "H4" then Some("Minor Heading")
    else if tag == "H5" then Some("Detail Heading")
    else if tag == "H6" then Some("Fine Detail")
    else if tag == "P" then Some("Paragraph text content describing the topic.")
    else if tag == "LI" then Some("List item description.")
    else if tag == "SPAN" then Some("Inline text span.")
    else if tag == "A" then
      if inNav then None
      else if "btn" in classes || "button" in classes then Some("Call to Action")
      else Some("Link Text")
    else if tag == "BUTTON" then Some("Button Label")
    else None
  }

  /** Every placeholder starts with a letter, so none is whitespace-only: a replaced text
      node is replaced again, with the same text, by a second pass. */
  lemma PlaceholderNotBlank(tag: string, classes: set<string>, inNav: bool)
    ensures var p := PlaceholderFor(tag, classes, inNav);
      p.Some? ==> |p.value| > 0 && !Text.IsSpace(p.value[0]) && !IsWhitespaceOnly(p)
  {
    var p := PlaceholderFor(tag, classes, inNav);
    if p.Some? {
      assert |p.value| > 0 && 'A' <= p.value[0] <= 'Z';
    }
  }

  predicate IsFormField(tag: string) {
    tag == "INPUT" || tag == "TEXTAREA"
  }

  /** One direct child after `replaceInElement`: a text node that is not whitespace-only
      takes the placeholder; every other child is left as it is. */
  function ReplaceChild(child: Node, p: Option<string>): (r: Node)
    ensures p.None? || !child.Text? || IsWhitespaceOnly(Some(child.content)) ==> r == child
    ensures p.Some? && child.Text? && !IsWhitespaceOnly(Some(child.content)) ==> r == Text(p.value)
  {
    match p
    case None => child
    case Some(s) => if child.Text? && !IsWhitespaceOnly(Some(child.content)) then Text(s) else child
  }

  /** `replaceInElement(el)` on an element, with `inNav` as above. */
  function ReplaceInElement(e: Node, inNav: bool): (r: Node)
    requires e.Element?
    ensures r.Element? && r.tag == e.tag && r.classes == e.classes && |r.children| == |e.children|
    ensures e.tag in SkipTags ==> r == e
    ensures IsFormField(e.tag) && e.tag !in SkipTags ==>
      r.children == e.children && r.placeholder == (if e.placeholder == "" then "" else InputPlaceholder)
    ensures !IsFormField(e.tag) ==> r.placeholder == e.placeholder
    ensures forall i :: 0 <= i < |e.children| ==>
      var c := e.children[i];
      && (!c.Text? ==> r.children[i] == c)
      && (c.Text? && IsWhitespaceOnly(Some(c.content)) ==> r.children[i] == c)
      && (c.Text? && !IsWhitespaceOnly(Some(c.content)) && !IsFormField(e.tag) && e.tag !in SkipTags ==>
            r.children[i] == (match PlaceholderFor(e.tag, e.classes, inNav)
                              case Some(p) => Text(p)
                              case None => c))
  {
    if e.tag in SkipTags then e
    else if IsFormField(e.tag) then
      if e.placeholder != "" then e.(placeholder := InputPlaceholder) else e
    else
      var p := PlaceholderFor(e.tag, e.classes, inNav);
      if p.None? then e
      else e.(children := seq(|e.children|, i requires 0 <= i < |e.children| => ReplaceChild(e.children[i], p)))
  }

  /** The walk below an element that the tree walker accepts: its own text is replaced,
      then every child element is visited, an element inside a `NAV` counting as inside
      navigation. A skipped tag ends the walk of that subtree. */
  function Visit(n: Node, inNav: bool): (r: Node)
    requires n.Element?
    ensures r.Element? && r.tag == n.tag && r.classes == n.classes && |r.children| == |n.children|
    ensures n.tag in SkipTags ==> r == n
    ensures n.tag !in SkipTags ==>
      && r.placeholder == ReplaceInElement(n, inNav).placeholder
      && forall i :: 0 <= i < |n.children| && !n.children[i].Element? ==>
           r.children[i] == ReplaceInElement(n, inNav).children[i]
    decreases n
  {
    if n.tag in SkipTags then n
    else
      var e := ReplaceInElement(n, inNav);
      var below := inNav || n.tag == "NAV";
      e.(children := seq(|n.children|, i requires 0 <= i < |n.children| =>
        if n.children[i].Element? then Visit(n.children[i], below) else e.children[i]))
  }

  /** `walk(root)`: the tree walker yields the descendants of `root`, never `root`
      itself, so only the subtrees below it are visited. `navAbove` is whether `root` or
      an ancestor of it is a `NAV`. */
  function Walk(root: Node, navAbove: bool): (r: Node)
    requires root.Element?
    ensures r.Element? && r.tag == root.tag && r.classes == root.classes
    ensures r.placeholder == root.placeholder && |r.children| == |root.children|
    ensures forall i :: 0 <= i < |root.children| && !root.children[i].Element? ==> r.children[i] == root.children[i]
  {
    var below := navAbove || root.tag == "NAV";
    root.(children := seq(|root.children|, i requires 0 <= i < |root.children| =>
      if root.children[i].Element? then Visit(root.children[i], below) else root.children[i]))
  }

  // ---- Properties of the walk ----

  /** `b` is `a` after a walk that left skipped subtrees alone: same tree shape, same tags
      and classes, and every element with a skipped tag unchanged with its whole subtree. */
  predicate SkippedIntact(a: Node, b: Node)
    decreases a
  {
    match a
    case Element(tag, classes, _, cs) =>
      && b.Element? && b.tag == tag && b.classes == classes && |b.children| == |cs|
      && (tag in SkipTags ==> b == a)
      && forall i :: 0 <= i < |cs| ==> SkippedIntact(cs[i], b.children[i])
    case Text(_) => b.Text?
    case Other => b.Other?
  }

  lemma {:induction false} SkippedIntactRefl(a: Node)
    ensures SkippedIntact(a, a)
    decreases a
  {
    if a.Element? {
      forall i | 0 <= i < |a.children|
        ensures SkippedIntact(a.children[i], a.children[i])
      {
        SkippedIntactRefl(a.children[i]);
      }
    }
  }

  /** Visiting never changes an element whose tag, or whose ancestor's tag, is skipped,
      and never changes the shape of the tree. */
  lemma {:induction false} VisitLeavesSkipped(n: Node, inNav: bool)
    requires n.Element?
    ensures SkippedIntact(n, Visit(n, inNav))
    decreases n
  {
    var r := Visit(n, inNav);
    if n.tag in SkipTags {
      SkippedIntactRefl(n);
    } else {
      var below := inNav || n.tag == "NAV";
      var e := ReplaceInElement(n, inNav);
      forall i | 0 <= i < |n.children|
        ensures SkippedIntact(n.children[i], r.children[i])
      {
        var c := n.children[i];
        if c.Element? {
          assert r.children[i] == Visit(c, below);
          VisitLeavesSkipped(c, below);
        } else {
          assert r.children[i] == e.children[i];
        }
      }
    }
  }

  /** The walk of a page leaves every skipped subtree as it was. */
  lemma WalkLeavesSkipped(root: Node, navAbove: bool)
    requires root.Element? && root.tag !in SkipTags
    ensures SkippedIntact(root, Walk(root, navAbove))
  {
    var r := Walk(root, navAbove);
    var below := navAbove || root.tag == "NAV";
    forall i | 0 <= i < |root.children|
      ensures SkippedIntact(root.children[i], r.children[i])
    {
      var c := root.children[i];
      if c.Element? {
        VisitLeavesSkipped(c, below);
      } else {
        SkippedIntactRefl(c);
      }
    }
  }

  /** `b` is `a` after the walk below an accepted element: a skipped element is unchanged;
      any other element has its placeholder attribute and its direct non-element children
      as `replaceInElement` leaves them, and each child element is related in the same way,
      one level deeper and inside navigation once a `NAV` is passed. */
  predicate Replaced(a: Node, b: Node, inNav: bool)
    decreases a
  {
    match a
    case Element(tag, classes, _, cs) =>
      && b.Element? && b.tag == tag && b.classes == classes && |b.children| == |cs|
      && (tag in SkipTags ==> b == a)
      && (tag !in SkipTags ==>
            var e := ReplaceInElement(a, inNav);
            && b.placeholder == e.placeholder
            && forall i :: 0 <= i < |cs| ==>
                 if cs[i].Element? then Replaced(cs[i], b.children[i], inNav || tag == "NAV")
                 else b.children[i] == e.children[i])
    case _ => b == a
  }

  /** Every element the tree walker accepts below `n`, at any depth, has its text
      replaced by `replaceInElement`. */
  lemma {:induction false} VisitReplaces(n: Node, inNav: bool)
    requires n.Element?
    ensures Replaced(n, Visit(n, inNav), inNav)
    decreases n
  {
    var r := Visit(n, inNav);
    if n.tag !in SkipTags {
      var below := inNav || n.tag == "NAV";
      forall i | 0 <= i < |n.children| && n.children[i].Element?
        ensures Replaced(n.children[i], r.children[i], below)
      {
        assert r.children[i] == Visit(n.children[i], below);
        VisitReplaces(n.children[i], below);
      }
    }
  }

  /** A walk of the page replaces the text of every element below the root that the tree
      walker accepts. */
  lemma WalkReplaces(root: Node, navAbove: bool)
    requires root.Element?
    ensures var r := Walk(root, navAbove);
      forall i :: 0 <= i < |root.children| && root.children[i].Element? ==>
        Replaced(root.children[i], r.children[i], navAbove || root.tag == "NAV")
  {
    var r := Walk(root, navAbove);
    var below := navAbove || root.tag == "NAV";
    forall i | 0 <= i < |root.children| && root.children[i].Element?
      ensures Replaced(root.children[i], r.children[i], below)
    {
      VisitReplaces(root.children[i], below);
    }
  }

  /** A tag with a fixed placeholder is neither skipped nor a form field. */
  lemma FixedTagIsPlain(tag: string)
    requires tag in FixedPlaceholders
    ensures tag !in SkipTags && !IsFormField(tag)
  {
    assert tag in {"H1", "H2", "H3", "H4", "H5", "H6", "P", "LI", "SPAN", "BUTTON"} by {
      assert FixedPlaceholders.Keys == {"H1", "H2", "H3", "H4", "H5", "H6", "P", "LI", "SPAN", "BUTTON"};
    }
  }

  /** Text is really replaced: a visible text directly inside a visited heading,
      paragraph, list item, span or button reads as that tag's fixed placeholder. */
  lemma VisitRewritesText(e: Node, inNav: bool, j: nat)
    requires e.Element? && e.tag in FixedPlaceholders
    requires j < |e.children| && e.children[j].Text? && !Text.AllSpace(e.children[j].content)
    ensures Visit(e, inNav).children[j] == Text(FixedPlaceholders[e.tag])
  {
    FixedTagIsPlain(e.tag);
    var p := PlaceholderFor(e.tag, e.classes, inNav);
    assert p == Some(FixedPlaceholders[e.tag]);
    var r := ReplaceInElement(e, inNav);
    assert Visit(e, inNav).children[j] == r.children[j];
    assert r.children[j] == Text(FixedPlaceholders[e.tag]);
  }

  /** Replacing an element's text twice is replacing it once: placeholders are not
      whitespace, so the second pass writes the same placeholder again. */
  lemma ReplaceTwice(e: Node, inNav: bool)
    requires e.Element?
    ensures ReplaceInElement(ReplaceInElement(e, inNav), inNav) == ReplaceInElement(e, inNav)
  {
    var r := ReplaceInElement(e, inNav);
    var rr := ReplaceInElement(r, inNav);
    if e.tag !in SkipTags && !IsFormField(e.tag) {
      var p := PlaceholderFor(e.tag, e.classes, inNav);
      if p.Some? {
        assert rr.children == r.children by {
          forall i | 0 <= i < |r.children|
            ensures rr.children[i] == r.children[i]
          {
            assert r.children[i] == ReplaceChild(e.children[i], p);
            assert rr.children[i] == ReplaceChild(r.children[i], p);
            PlaceholderNotBlank(e.tag, e.classes, inNav);
          }
        }
      }
    }
  }

  /** A second visit leaves the result of the first unchanged. */
  lemma {:induction false} VisitIdempotent(n: Node, inNav: bool)
    requires n.Element?
    ensures Visit(Visit(n, inNav), inNav) == Visit(n, inNav)
    decreases n
  {
    var r := Visit(n, inNav);
    if n.tag !in SkipTags {
      var below := inNav || n.tag == "NAV";
      var e := ReplaceInElement(n, inNav);
      var rr := Visit(r, inNav);
      var er := ReplaceInElement(r, inNav);
      assert er.placeholder == r.placeholder;
      forall i | 0 <= i < |n.children|
        ensures rr.children[i] == r.children[i]
      {
        var c := n.children[i];
        if c.Element? {
          assert r.children[i] == Visit(c, below);
          VisitIdempotent(c, below);
        } else {
          assert r.children[i] == e.children[i];
          assert er.children[i] == r.children[i] by {
            ReplaceChildTwice(n, inNav, i);
          }
        }
      }
      assert rr.children == r.children;
    }
  }

  /** A non-element child of a visited element reads the same after a second replacement. */
  lemma ReplaceChildTwice(n: Node, inNav: bool, i: nat)
    requires n.Element? && n.tag !in SkipTags && i < |n.children| && !n.children[i].Element?
    ensures ReplaceInElement(Visit(n, inNav), inNav).children[i] == Visit(n, inNav).children[i]
  {
    var r := Visit(n, inNav);
    var e := ReplaceInElement(n, inNav);
    assert r.children[i] == e.children[i];
    var c := n.children[i];
    var p := PlaceholderFor(n.tag, n.classes, inNav);
    if c.Text? && !IsFormField(n.tag) && p.Some? && !IsWhitespaceOnly(Some(c.content)) {
      assert e.children[i] == Text(p.value);
      PlaceholderNotBlank(n.tag, n.classes, inNav);
    }
  }

  /** Running the tool twice gives the same page as running it once. */
  lemma WalkIdempotent(root: Node, navAbove: bool)
    requires root.Element?
    ensures Walk(Walk(root, navAbove), navAbove) == Walk(root, navAbove)
  {
    var r := Walk(root, navAbove);
    var rr := Walk(r, navAbove);
    var below := navAbove || root.tag == "NAV";
    forall i | 0 <= i < |root.children|
      ensures rr.children[i] == r.children[i]
    {
      if root.children[i].Element? {
        VisitIdempotent(root.children[i], below);
      }
    }
    assert rr.children == r.children;
  }
}
